=== FILE: README.md ===
# Helen Energy integration — a Dafny model

Helen Energy is a Home Assistant integration for the Finnish electricity
retailer Helen. A user adds a config entry either through a form (the config
flow's user step) or by importing a legacy YAML block. The integration then
logs in to Helen's API through a data coordinator, which polls contract,
price and consumption data. From the contract type that comes back it
decides which price sensor to create. Every entry also gets a monthly
consumption sensor, and a transfer-costs sensor when the user asks for one.

This project models the decision logic of that integration as pure Dafny
functions over an explicit model of Python values (`Common.Value`, with
`Data = map<string, Value>` for dictionaries, Python truthiness and
`dict.get`), and proves what the code promises about it:

- `Sensor` — `safe_round`, consumption totals and daily averages, the
  price-override rule, the coordinator's update and error-recovery policy,
  the contract-type dispatch that picks the price sensor, and the unique id
  and name scheme of the entities.
- `Schema` — the subset of voluptuous dictionary validation the integration
  relies on: required and optional keys, defaults, type checks and
  inclusive ranges.
- `ConfigFlow` — the user, re-authentication and import steps: unique ids
  and titles, stored entry data, error mapping and the contract-type check.
  External calls (price fetch, login, delivery-site selection, contract
  lookup, the clock, the set of configured unique ids) are parameters of
  the flow environment `FlowEnv`.
- `Migration` — the version-1 to version-2 entry migration.
- `Integration` — the YAML `CONFIG_SCHEMA`, `async_setup` (when a YAML
  import is started) and `async_setup_entry` (the migration gate).
- `Text` — the string operations the code uses: substring `in`,
  `lower`/`upper`, `str.title` on sensor types, and decimal formatting of
  the entry number.

Floating-point arithmetic is not modelled bit for bit. Rounding to two
decimals and `float()` of a string are the parameters `round2` and
`parseFloat` of `Sensor.Numerics`, so statements about them hold for any
rounding function. Sums of measurements and the division behind the daily
average are exact real arithmetic, while Python's floats round at each step;
"Left out" names the statements this affects.

`async_setup_entry` in `__init__.py` hands an entry to the migration only
when its version is not 1. The migration acts only on version 1, so on that
path it returns the entry unchanged. `Integration.SetupEntry` states this:
set-up always succeeds and never rewrites an entry. The third row under
"Findings" records this dead gate next to the gate that lets the migration
act (`Integration.SetupEntryMigrating`).

## Model

| member | source | states |
|---|---|---|
| Sensor.SafeRound | custom_components/helen_energy/sensor.py:53-60 | None and values `float()` rejects give 0.0; any other value gives the rounding of its float |
| Sensor.MaskedSumIsValidSum | custom_components/helen_energy/sensor.py:346-352 | adding measurements with invalid ones counted as zero equals summing only the valid measurements |
| Sensor.SumValidMeasurements | custom_components/helen_energy/sensor.py:346-352 | one pass over the measurements returns exactly the sum and the number of the valid ones |
| Sensor.TotalConsumption | custom_components/helen_energy/sensor.py:337-353 | no intervals give 0.0; otherwise the result is the rounded sum of the valid measurements of the first interval |
| Sensor.MeanWithinBounds | custom_components/helen_energy/sensor.py:399-406 | the mean of non-empty values lies between any lower and upper bound of those values |
| Sensor.DailyAverage | custom_components/helen_energy/sensor.py:388-406 | no intervals give 0.0; no valid measurement gives round(0) with no division; otherwise the rounded mean of the valid measurements |
| Sensor.DailyAverageWithinValidRange | custom_components/helen_energy/sensor.py:388-406 | the average is the rounding of the exact mean, a value between the smallest and largest valid measurement |
| Sensor.PriceWithOverride | custom_components/helen_energy/sensor.py:466-476 | a configured default price wins over the fetched one; without it the fetched price is safe-rounded, and a missing key gives round(0) |
| Sensor.OverrideIgnoresFetchedData | custom_components/helen_energy/sensor.py:466-476 | with a default price configured, the base and unit prices do not depend on the coordinator's data at all |
| Sensor.PriorityRule | custom_components/helen_energy/sensor.py:288-309 | each price sensor is chosen exactly when its test holds and no earlier test did: fixed/PERUS/KAYTTO, then MARK, PORS, VALTTI; none otherwise |
| Sensor.DispatchAsWritten | custom_components/helen_energy/sensor.py:283-309 | a truthy fixed flag always gives the fixed sensor; the dispatch raises a TypeError exactly when the flag is falsy and the contract type cannot be searched with `in` |
| Sensor.Dispatch | custom_components/helen_energy/sensor.py:283-309 | the corrected dispatch never fails; a missing or non-string contract type gives no price sensor; it agrees with the code wherever the code succeeds on a non-dict value |
| Sensor.SetupEntitiesAsWritten | custom_components/helen_energy/sensor.py:244-317 | set-up as written fails with a KeyError for the first missing username, password or VAT key, in that order, then with a TypeError when the VAT is neither a number nor a bool, then with a TypeError exactly when the dispatch as written raises; when it succeeds on a contract type that is not a dictionary it creates the corrected set-up's entities |
| Sensor.SetupEntities | custom_components/helen_energy/sensor.py:283-317 | the corrected set-up, which never fails: the entity list ends with the monthly-consumption sensor, holds the transfer-costs sensor iff that option is truthy, and starts with at most one price sensor, the one the dispatch picks |
| Sensor.FirstIndex | custom_components/helen_energy/sensor.py:426-434 | the position of an entry's first occurrence among the domain's entries, or none when absent |
| Sensor.EntryNumber | custom_components/helen_energy/sensor.py:426-434 | a listed entry's number is its 1-based position; an unlisted entry counts as number 2 |
| Sensor.UniqueId | custom_components/helen_energy/sensor.py:426-434 | every id starts with `<entry id>_<type>`; it is exactly that prefix iff the entry is the domain's first, and otherwise continues with `_` and the decimal entry number |
| Sensor.DeliverySite | custom_components/helen_energy/sensor.py:453-454 | a string delivery site distinguishes an entry's names exactly when it is truthy |
| Sensor.NameSuffix | custom_components/helen_energy/sensor.py:453-459 | the suffix is `Site <site>` for a delivery site, otherwise decimal digits that read back as the entry number |
| Sensor.LaterEntryName | custom_components/helen_energy/sensor.py:461 | an additional entry's name is `Helen `, the title, ` (`, the suffix and `)` |
| Sensor.BaseName | custom_components/helen_energy/sensor.py:438-461 | a non-empty explicit name wins; otherwise the first entry gets its legacy name whatever the legacy flag says, and any other entry `Helen <type title> (<suffix>)` |
| Sensor.NameSuffixesDistinct | custom_components/helen_energy/sensor.py:453-459 | two different entries get different suffixes unless both name the same delivery site |
| Sensor.LaterEntryNamesDistinct | custom_components/helen_energy/sensor.py:438-461 | sensors of one type in two different additional entries get different names unless both entries name the same delivery site |
| Sensor.SensorIdentityFollowsBaseScheme | custom_components/helen_energy/sensor.py:749-830 | every sensor kind's id and name equal what the base sensor computes from its type string: the transfer-costs and monthly-consumption sensors' spelled-out ids and names follow the same scheme |
| Sensor.TransferCostsUniqueId | custom_components/helen_energy/sensor.py:754-758 | the transfer-costs sensor's id is the base id with type `transfer_costs` |
| Sensor.MonthlyConsumptionUniqueId | custom_components/helen_energy/sensor.py:801-805 | the monthly-consumption sensor's id is the base id with type `monthly_consumption` |
| Sensor.TitleTransferCosts | custom_components/helen_energy/sensor.py:461 | `transfer_costs` with underscores replaced and title-cased reads `Transfer Costs` |
| Sensor.TitleMonthlyConsumption | custom_components/helen_energy/sensor.py:461 | `monthly_consumption` with underscores replaced and title-cased reads `Monthly Consumption` |
| Sensor.SensorTypeInjective | custom_components/helen_energy/sensor.py:426-434 | different sensor kinds have different type strings |
| Sensor.UniqueIdsDistinctPerEntry | custom_components/helen_energy/sensor.py:426-434 | two different sensors of one entry never share a unique id |
| Sensor.DistinctTypesDistinctIds | custom_components/helen_energy/sensor.py:426-434 | different type strings give different unique ids within one entry |
| Sensor.EntryNumberReadsBack | custom_components/helen_energy/sensor.py:433-434 | the text after a later entry's `<entry id>_<type>_` prefix is all digits and parses back to the entry number, which is at least 2 |
| Sensor.Update | custom_components/helen_energy/sensor.py:210-226 | a successful fetch replaces the data; an API error mentioning "authentication" in any case asks for re-authentication; any other error keeps the last data, or `{}` when there is none |
| Sensor.AuthFailureIgnoresCase | custom_components/helen_energy/sensor.py:211 | whether an error asks for re-authentication does not depend on the message's letter case |
| Sensor.RunUpdatesKeepsLastGood | custom_components/helen_energy/sensor.py:210-226 | after a run of updates without auth failures the coordinator holds the last successful fetch, or `{}` if none succeeded, or its initial data if nothing ran |
| Sensor.AssembleData | custom_components/helen_energy/sensor.py:114-209 | assembly fails iff some unguarded API call fails; on success the data has the coordinator's fixed key set, the contract fields as fetched, zero transfer costs when disabled, and no unit price exactly when its lookup failed or returned None |
| Sensor.Refresh | custom_components/helen_energy/sensor.py:114-229 | a refresh whose lookups succeed yields data with the coordinator's full key set; a crash in a later lookup keeps the previous data, or `{}` when there is none; when login, site selection or a mandatory lookup fails, the refresh asks for re-authentication iff the error is an authentication failure, and otherwise keeps the previous data, or `{}` |
| Sensor.FailedFirstRefreshBreaksDispatch | custom_components/helen_energy/sensor.py:219-224 | a failed first refresh leaves `{}`, with which the dispatch as written raises, so set-up as written fails with a TypeError, while the corrected set-up still creates the consumption sensor |
| Text.ContainsIffOccurs | custom_components/helen_energy/sensor.py:288-306 | the substring test used by `in` holds iff the pattern occurs at some position |
| Text.TitleCaseChars | custom_components/helen_energy/sensor.py:461 | each character of a title-cased string is upper-case after a non-letter and lower-case after a letter |
| Text.ParseNatToString | custom_components/helen_energy/sensor.py:433 | the decimal text of a number parses back to that number |
| Schema.Validate | custom_components/helen_energy/__init__.py:22-33 | validation succeeds iff the input has no unknown key and every field holds; the result keeps given values, fills defaults and has exactly the given and defaulted keys; unknown keys are reported |
| Schema.ValidatedConforms | custom_components/helen_energy/__init__.py:22-33 | a validated dictionary is itself accepted by the schema: its defaults pass their checks |
| Schema.ValidateIdempotent | custom_components/helen_energy/__init__.py:22-33 | validating a validated dictionary returns it unchanged |
| Schema.ValidatedValuesPassChecks | custom_components/helen_energy/config_flow.py:222-245 | every value of a validated dictionary passes its field's check, defaults included |
| ConfigFlow.UserFormTyped | custom_components/helen_energy/config_flow.py:219-247 | a validated form has string credentials, a VAT between 0 and 100, a boolean fixed-price flag, and any default unit or base price a number of at least 0.00001 |
| ConfigFlow.UniqueIdAndTitle | custom_components/helen_energy/config_flow.py:67-80 | the id starts with the lower-cased username and `_`; with a non-empty site it ends with the site and the title names the site, otherwise it ends with the time and the title names the user |
| ConfigFlow.UniqueIdIgnoresCase | custom_components/helen_energy/config_flow.py:74-77 | usernames that differ only in case give the same unique id |
| ConfigFlow.UniqueIdSeparatesSites | custom_components/helen_energy/config_flow.py:73-74 | one user's different delivery sites give different unique ids |
| ConfigFlow.UniqueIdSeparatesTimes | custom_components/helen_energy/config_flow.py:76-77 | without a site, different times give different unique ids |
| ConfigFlow.UniqueIdSeparatesUsers | custom_components/helen_energy/config_flow.py:73-74 | for one site, users whose names differ beyond case get different unique ids |
| ConfigFlow.EntryData | custom_components/helen_energy/config_flow.py:82-103 | the entry data holds exactly the form's keys among the eight known ones, with the form's values |
| ConfigFlow.BuildEntryData | custom_components/helen_energy/config_flow.py:82-103 | copying the three required keys and then each optional key present yields the entry data |
| ConfigFlow.ValidatedFormStoredWhole | custom_components/helen_energy/config_flow.py:82-103 | every key of a validated form is stored, so the entry data equals the validated form |
| ConfigFlow.MinimalEntryData | custom_components/helen_energy/config_flow.py:84-88 | a form with only the three required keys is stored as it is |
| ConfigFlow.HandleErrors | custom_components/helen_energy/config_flow.py:105-123 | the error is `invalid_auth` iff authentication failed, `invalid_delivery_site_id` iff the site was rejected, `cannot_connect` otherwise |
| ConfigFlow.UserStepErrorsAreHandleErrors | custom_components/helen_energy/config_flow.py:201-211 | the user step's two except clauses together report what the error mapping reports |
| ConfigFlow.ReauthErrorsDifferOnlyOnSite | custom_components/helen_energy/config_flow.py:280-289 | re-authentication reports the mapped error except for a site rejection, which its broad except turns into `cannot_connect` |
| ConfigFlow.SupportedIffPriceSensor | custom_components/helen_energy/config_flow.py:135-137 | the flow accepts a contract type iff sensor set-up would create a price sensor for it |
| ConfigFlow.ValidateContractType | custom_components/helen_energy/config_flow.py:125-143 | a failed lookup counts as supported; a fetched type is supported iff it contains one of the five markers, and an unsupported type is returned |
| ConfigFlow.UserAttempt | custom_components/helen_energy/config_flow.py:162-199 | a missing VAT fails as unexpected; a failed price fetch fails with its exception; then a VAT that cannot be divided or a missing username or password fails as unexpected; then a failed login, and a failed site selection when a site is given, fails with its exception; an attempt is ready only after the price fetch, login and site selection succeed and, unless fixed price is set, the contract type is supported; it is unsupported exactly when that check fails, which needs a VAT that is a number or a bool, as Python's division accepts; a ready attempt carries a string username and the unique id and title formed from it, the delivery site and the clock |
| ConfigFlow.UnsupportedForm | custom_components/helen_energy/config_flow.py:180-187 | an unsupported contract type re-shows the user form with the `unsupported_contract_type` error and names the type, or `Unknown` when it is missing or empty |
| ConfigFlow.UserStepAsWritten | custom_components/helen_energy/config_flow.py:156-217 | the step as written never aborts: a duplicate unique id ends as a `cannot_connect` form |
| ConfigFlow.UserStep | custom_components/helen_energy/config_flow.py:156-217 | no input shows the empty form; a ready attempt creates the entry with its id, title and data iff its id is not configured, and aborts with `already_configured` iff it is; a failed attempt shows the user step's error for its exception; an unsupported contract type shows the unsupported-type form; the created entry's id and title are formed from the username, the delivery site and the clock |
| ConfigFlow.CaseVariantSubmissionAborts | custom_components/helen_energy/config_flow.py:190-194 | after the step created an entry, submitting the same site with the username differing only in case aborts with `already_configured` |
| ConfigFlow.UserStepReportsLoginAndSiteErrors | custom_components/helen_energy/config_flow.py:162-211 | a wrong password shows the user form with `invalid_auth`, and a rejected delivery site shows it with `invalid_delivery_site_id` |
| ConfigFlow.DuplicateEntryShowsConnectionError | custom_components/helen_energy/config_flow.py:193-211 | for an already configured id the code shows `cannot_connect` where an abort was meant |
| ConfigFlow.FixedPriceSkipsContractCheck | custom_components/helen_energy/config_flow.py:177-179 | with fixed price set, the step's result does not depend on the contract-type lookup |
| ConfigFlow.ValidatedFormFailsOnlyExternally | custom_components/helen_energy/config_flow.py:162-199 | for a validated form, the step fails only when an external call fails |
| ConfigFlow.CreatedEntryGetsPriceSensor | custom_components/helen_energy/config_flow.py:177-199 | an entry the user step creates always gets a price sensor once the coordinator reports the same contract type |
| ConfigFlow.ReauthData | custom_components/helen_energy/config_flow.py:272-273 | re-authentication replaces the password and keeps every other key and value |
| ConfigFlow.ReauthLastWins | custom_components/helen_energy/config_flow.py:272-273 | two re-authentications equal the last one alone |
| ConfigFlow.ReauthKeepsSensors | custom_components/helen_energy/config_flow.py:272-275 | re-authentication does not change which sensors an entry gets |
| ConfigFlow.ReauthStep | custom_components/helen_energy/config_flow.py:253-297 | no input shows the form; a missing entry aborts with `reauth_failed`; with an entry, the first failure among the VAT read, the price fetch, the VAT division, the username and password reads and the login shows the re-authentication error for it, and when none fails the step ends with `reauth_successful` and the entry's data with the new password |
| ConfigFlow.ImportEntryData | custom_components/helen_energy/config_flow.py:316-334 | the imported data has the credentials, VAT defaulting to 25.5, the fixed flag iff the contract type upper-cases to FIXED, the transfer option defaulting to False, and the optional keys present |
| ConfigFlow.ImportStep | custom_components/helen_energy/config_flow.py:299-347 | an existing import id aborts with `already_configured`; for a new id, an authentication failure of the price fetch or the login aborts with `invalid_auth`, any other failure of either, a missing password, a VAT that is neither a number nor a bool or a contract type that is not a string aborts with `unknown`, and otherwise the entry is created; the import never shows a form |
| ConfigFlow.ImportIdIgnoresCase | custom_components/helen_energy/config_flow.py:304-306 | once one import created its entry, importing a username differing only in case aborts |
| ConfigFlow.ImportedContractDispatch | custom_components/helen_energy/config_flow.py:316-317 | an imported FIXED contract always gets the fixed-price sensor; any other leaves the choice to the fetched contract type |
| Migration.MigrateEntry | custom_components/helen_energy/migration.py:12-35 | entries not at version 1 are unchanged; a version-1 entry without a username fails; otherwise it becomes version 2 with the same id, the user's title, old values kept and `include_transfer_costs` added as False when absent |
| Migration.MigrateIdempotent | custom_components/helen_energy/migration.py:17-33 | migrating a migrated entry changes nothing |
| Migration.MigrationKeepsSensors | custom_components/helen_energy/migration.py:22-23 | the default the migration adds does not change which sensors the entry gets |
| Migration.MigrateCommutesWithReauth | custom_components/helen_energy/migration.py:19-30 | migration and a password change commute |
| Integration.ConfigSchema | custom_components/helen_energy/__init__.py:22-33 | without the domain key the configuration passes unchanged; other top-level keys pass through; the domain block passes iff it is a dictionary the schema accepts, and is replaced by its validated form |
| Integration.YamlCredentialsOnly | custom_components/helen_energy/__init__.py:24-31 | a block with only credentials validates to VAT 25.5, an empty contract type and transfer costs off |
| Integration.YamlRejectsVatOutOfRange | custom_components/helen_energy/__init__.py:26 | a VAT below 0 or above 100 is rejected |
| Integration.YamlRejectsNegativePrice | custom_components/helen_energy/__init__.py:28-29 | a negative default price is rejected |
| Integration.YamlRequiresCredentials | custom_components/helen_energy/__init__.py:24-25 | a block without username or password is rejected |
| Integration.ZeroPriceOnlyInYaml | custom_components/helen_energy/__init__.py:28-29 | a zero default unit price passes the YAML check but fails the form schema |
| Integration.AsyncSetup | custom_components/helen_energy/__init__.py:36-64 | set-up always succeeds and starts an import iff a YAML block exists and no entry has its username |
| Integration.ImportHappensOnce | custom_components/helen_energy/__init__.py:49-62 | once the import has created its entry, the next start-up imports nothing |
| Integration.ValidatedYamlImports | custom_components/helen_energy/__init__.py:22-33 | a validated YAML block is a dictionary with a string username, as set-up and the import step need |
| Integration.SetupEntry | custom_components/helen_energy/__init__.py:67-75 | set-up as written succeeds for every entry and leaves it unchanged |
| Integration.SetupEntryMigrating | custom_components/helen_energy/__init__.py:67-75 | with the gate on version 1, other versions pass unchanged; a version-1 entry without a username fails; otherwise it reaches version 2 with its id kept and `include_transfer_costs` added |
| Integration.SetupEntryNeverMigrates | custom_components/helen_energy/migration.py:17-33 | a version-1 entry with a username and no transfer option stays at version 1 without the option under the gate as written, but is migrated under the gate on version 1 |

## Left out

- The Helen API client, the price client and the HTTP session are left out. Their results are inputs of the model: `Sensor.Readings` for the coordinator and `ConfigFlow.FlowEnv` for the flows.
- The Home Assistant runtime is left out: entity registration, config-entry storage, scheduling of background jobs, reloading after re-authentication, and unloading (`async_unload_entry`). These are framework behaviour.
- The sensors' cost formulas (`native_value` and the extra attributes of the price and cost sensors) are left out. They are floating-point arithmetic over API values with no branching logic worth proving.
- Dates and the clock are parameters. `int(time())` is the flow's `now`, and the month ranges are left out.
- The legacy entity-name helpers and the entity-registry migration (`async_migrate_entities_for_compatibility`) are not part of this model. The price sensors' legacy naming flag and names are parameters.
- `async_setup_platform` is left out: it only logs a deprecation warning and returns False.
- `async_step_reauth` is left out: it only forwards to the confirm step.
- `_cleanup_resources`, `_create_api_client` and logging are left out; they have no effect on the results.
- Sensor.SafeRound: the rounding and `float()` of a string are abstract parameters. A number always converts, whereas `float()` of an int beyond the double range raises OverflowError, which `safe_round` does not catch.
- Sensor.TotalConsumption: the sum of the valid measurements is exact real arithmetic; Python's float `sum` rounds at each addition.
- Sensor.DailyAverage: the sum of the valid measurements and the division by their count are exact real arithmetic; Python's float `sum` and `/` round at each step.
- Sensor.DailyAverageWithinValidRange: the bound holds for the exact mean only. The float mean can leave [min, max] by a rounding error: for three readings of 0.1 it is 0.10000000000000002.
- Schema.Validate: values are already typed. The coercions of `vol.Coerce(float)` and `cv.string`, such as numeric strings becoming floats, are not modelled.
- Text.ToLower: case mapping covers ASCII letters only. Python's `lower`/`upper`/`title` also map other Unicode letters.
- ConfigFlow.UserAttempt: a delivery site that is not a string is treated as absent when forming the unique id, since the f-string formatting of other values is not modelled.
- Sensor.SensorIdentityFollowsBaseScheme: a delivery site that is not a string is treated as absent in sensor names, for the same reason.
- ConfigFlow.ValidateContractType: the lookup yields a string or an exception. A lookup returning None, which would make the `in` test raise and then count as supported, is folded into the exception case.
- Migration.MigrateEntry: `str()` of a username that is not a string is the abstract parameter `repr`.
- Sensor.SetupEntitiesAsWritten: the exchange-price fetch (sensor.py:258-261) and the exceptions of the first refresh itself are not modelled; the coordinator's data after the refresh is an input. A boolean VAT is accepted, as Python divides a bool like an int.
- Integration.AsyncSetup: a YAML block that is not a dictionary is excluded by its precondition. `CONFIG_SCHEMA` rejects such a block before set-up runs (`Integration.ValidatedYamlImports`).

## Findings

| source | as written | input that shows it | evidently intended | confidence | as-written member | corrected member |
|---|---|---|---|---|---|---|
| custom_components/helen_energy/sensor.py:281-288 | the contract type is read with `.get` and searched with `"PERUS" in contract_type` | a first refresh that fails with a non-authentication error and no earlier data leaves the coordinator data `{}`; with fixed price off, `contract_type` is None and `in` raises TypeError, so no entity is created | treat a missing contract type as unknown: no price sensor, the other sensors still created | high for the TypeError, not executed | Sensor.DispatchAsWritten, Sensor.SetupEntitiesAsWritten, Sensor.FailedFirstRefreshBreaksDispatch | Sensor.Dispatch |
| custom_components/helen_energy/config_flow.py:193-211 | `_abort_if_unique_id_configured` runs inside the `try` whose `except Exception` also catches the AbortFlow it raises | submitting the form again for a user and delivery site already configured shows the form with `cannot_connect` | abort the flow with `already_configured` | medium, not executed | ConfigFlow.UserStepAsWritten, ConfigFlow.DuplicateEntryShowsConnectionError | ConfigFlow.UserStep |
| custom_components/helen_energy/__init__.py:69-72 | the migration runs only when `entry.version != 1`, while the migration acts only on version 1 | a version-1 entry without `include_transfer_costs` is set up unchanged and never gains the key | run the migration for version-1 entries | low, not executed: the flow's VERSION is 1, so Home Assistant never calls the migration either, and the sensors read the missing key as falsy | Integration.SetupEntry, Integration.SetupEntryNeverMigrates | Integration.SetupEntryMigrating |

=== FILE: common.dfy ===
/** Values shared by every part of the integration: the dynamically typed
    values that Home Assistant stores in config-entry data and in the
    coordinator's data dictionary, Python's truthiness and `dict.get`,
    and the config-entry record itself. */
module Common {

  datatype Option<+T> = None | Some(value: T) {
    function GetOr(default: T): T {
      match this
      case Some(v) => v
      case None => default
    }
  }

  datatype Result<+T, +E> = Ok(value: T) | Err(error: E)

  /** A Python value as it appears in a config-entry or coordinator dict.
      Integers and floats are both `VNum`; nested dicts are `VDict`. */
  datatype Value =
    | VNone
    | VBool(b: bool)
    | VNum(x: real)
    | VStr(s: string)
    | VDict(d: map<string, Value>)

  type Data = map<string, Value>

  /** `d.get(k, default)` */
  function Get(d: Data, k: string, default: Value): Value {
    if k in d then d[k] else default
  }

  /** Python's `bool(v)`. */
  predicate Truthy(v: Value) {
    match v
    case VNone => false
    case VBool(b) => b
    case VNum(x) => x != 0.0
    case VStr(s) => s != ""
    case VDict(d) => d != map[]
  }

  /** A value Python's `/` accepts: a number, or a bool, which Python
      treats as the int 0 or 1. */
  predicate Divisible(v: Value) {
    v.VNum? || v.VBool?
  }

  /** A Home Assistant config entry: the parts this integration reads or rewrites. */
  datatype ConfigEntry = ConfigEntry(entryId: string, version: nat, title: string, data: Data)

  // Keys of the config-entry data (the integration's configuration constants).
  const Domain: string := "helen_energy"
  const KeyUsername: string := "username"
  const KeyPassword: string := "password"
  const KeyVat: string := "vat"
  const KeyFixedPrice: string := "is_fixed_price"
  const KeyContractType: string := "contract_type"
  const KeyDefaultUnitPrice: string := "default_unit_price"
  const KeyDefaultBasePrice: string := "default_base_price"
  const KeyIncludeTransferCosts: string := "include_transfer_costs"
  const KeyDeliverySiteId: string := "delivery_site_id"

  /** The integration's default VAT percentage. */
  const DefaultVat: real := 25.5
}

=== FILE: config_flow.dfy ===
/** The configuration flow: the form a user fills in, the entry data it
    produces, the errors it shows, re-authentication and the YAML import.
    Every call into the Helen API, the price service and Home Assistant's
    entry registry is an outcome recorded in `FlowEnv`. */
module ConfigFlow {
  import opened Common
  import opened Text
  import opened Schema
  import Sensor

  /** The form shown in the `user` step; Home Assistant validates the
      submitted dictionary against it before the step sees it. */
  const UserSchema: Schema := [
    Field(KeyUsername, true, None, IsString),
    Field(KeyPassword, true, None, IsString),
    Field(KeyVat, true, Some(VNum(DefaultVat)), InRange(Some(0.0), Some(100.0))),
    Field(KeyFixedPrice, false, Some(VBool(false)), IsBool),
    Field(KeyDeliverySiteId, false, None, IsString),
    Field(KeyDefaultUnitPrice, false, None, InRange(Some(0.00001), None)),
    Field(KeyDefaultBasePrice, false, None, InRange(Some(0.00001), None)),
    Field(KeyIncludeTransferCosts, false, Some(VBool(false)), IsBool)
  ]

  /** A submitted form always carries the credentials, a VAT within
      0..100 and both boolean flags; a default price it gives is at least
      0.00001. */
  lemma UserFormTyped(raw: Data)
    requires Validate(UserSchema, raw).Ok?
    ensures var u := Validate(UserSchema, raw).value;
      && KeyUsername in u && u[KeyUsername].VStr?
      && KeyPassword in u && u[KeyPassword].VStr?
      && KeyVat in u && u[KeyVat].VNum? && 0.0 <= u[KeyVat].x <= 100.0
      && KeyFixedPrice in u && u[KeyFixedPrice].VBool?
      && KeyIncludeTransferCosts in u && u[KeyIncludeTransferCosts].VBool?
      && (KeyDefaultUnitPrice in u ==> u[KeyDefaultUnitPrice].VNum? && u[KeyDefaultUnitPrice].x >= 0.00001)
      && (KeyDefaultBasePrice in u ==> u[KeyDefaultBasePrice].VNum? && u[KeyDefaultBasePrice].x >= 0.00001)
  {
    var u := Validate(UserSchema, raw).value;
    assert UserSchema[0].key in u;
    assert UserSchema[1].key in u;
    assert UserSchema[2].key in u;
    assert UserSchema[3].key in u;
    assert UserSchema[7].key in u;
    ValidatedValuesPassChecks(UserSchema, raw, 0);
    ValidatedValuesPassChecks(UserSchema, raw, 1);
    ValidatedValuesPassChecks(UserSchema, raw, 2);
    ValidatedValuesPassChecks(UserSchema, raw, 3);
    ValidatedValuesPassChecks(UserSchema, raw, 7);
    if KeyDefaultUnitPrice in u {
      ValidatedValuesPassChecks(UserSchema, raw, 5);
    }
    if KeyDefaultBasePrice in u {
      ValidatedValuesPassChecks(UserSchema, raw, 6);
    }
  }

  // ---------------------------------------------------------------------
  // Unique ID and title

  /** `_create_unique_id_and_title`: a non-empty delivery site names the
      entry; otherwise the username and the current time do. */
  function UniqueIdAndTitle(username: string, site: Option<string>, now: nat): (r: (string, string))
    ensures |r.0| > |ToLower(username)| && r.0[..|ToLower(username)| + 1] == ToLower(username) + "_"
    ensures site.Some? && site.value != "" ==>
      r.0[|ToLower(username)| + 1..] == site.value && r.1 == "Helen Energy (" + site.value + ")"
    ensures !(site.Some? && site.value != "") ==>
      r.0[|ToLower(username)| + 1..] == NatToString(now) && r.1 == "Helen Energy (" + username + ")"
  {
    var prefix := ToLower(username) + "_";
    if site.Some? && site.value != "" then
      assert (prefix + site.value)[|prefix|..] == site.value;
      (prefix + site.value, "Helen Energy (" + site.value + ")")
    else
      assert (prefix + NatToString(now))[|prefix|..] == NatToString(now);
      (prefix + NatToString(now), "Helen Energy (" + username + ")")
  }

  /** The unique ID does not depend on the username's case. */
  lemma UniqueIdIgnoresCase(u1: string, u2: string, site: Option<string>, now: nat)
    requires ToLower(u1) == ToLower(u2)
    ensures UniqueIdAndTitle(u1, site, now).0 == UniqueIdAndTitle(u2, site, now).0
  {
  }

  /** One account registers each delivery site under its own unique ID. */
  lemma {:induction false} UniqueIdSeparatesSites(username: string, s1: string, s2: string, now: nat)
    requires s1 != "" && s2 != "" && s1 != s2
    ensures UniqueIdAndTitle(username, Some(s1), now).0 != UniqueIdAndTitle(username, Some(s2), now).0
  {
  }

  /** Without a delivery site, entries made at different seconds differ. */
  lemma UniqueIdSeparatesTimes(username: string, t1: nat, t2: nat)
    requires t1 != t2
    ensures UniqueIdAndTitle(username, None, t1).0 != UniqueIdAndTitle(username, None, t2).0
  {
    NatToStringInjective(t1, t2);
  }

  /** Usernames that differ other than in case never share a site's unique ID. */
  lemma UniqueIdSeparatesUsers(u1: string, u2: string, site: string, now: nat)
    requires site != "" && ToLower(u1) != ToLower(u2)
    ensures UniqueIdAndTitle(u1, Some(site), now).0 != UniqueIdAndTitle(u2, Some(site), now).0
  {
    var a := ToLower(u1) + "_" + site;
    var b := ToLower(u2) + "_" + site;
    assert a[..|a| - |site| - 1] == ToLower(u1);
    assert b[..|b| - |site| - 1] == ToLower(u2);
  }

  // ---------------------------------------------------------------------
  // Entry data

  /** The keys `_build_entry_data` copies; each form key is stored under
      the configuration key of the same name. */
  const RequiredEntryKeys: set<string> := {KeyUsername, KeyPassword, KeyVat}
  const OptionalEntryKeys: seq<string> :=
    [KeyDefaultUnitPrice, KeyDefaultBasePrice, KeyDeliverySiteId, KeyIncludeTransferCosts, KeyFixedPrice]

  const EntryKeys: set<string> := RequiredEntryKeys
    + {KeyDefaultUnitPrice, KeyDefaultBasePrice, KeyDeliverySiteId, KeyIncludeTransferCosts, KeyFixedPrice}

  /** The entry data a form produces: the input restricted to the entry keys. */
  function EntryData(input: Data): (r: Data)
    ensures r.Keys == input.Keys * EntryKeys
    ensures forall k :: k in r ==> r[k] == input[k]
  {
    map k | k in input.Keys * EntryKeys :: input[k]
  }

  /** `_build_entry_data`: the three required values, then each optional
      value the input has. */
  method BuildEntryData(input: Data) returns (data: Data)
    requires KeyUsername in input && KeyPassword in input && KeyVat in input
    ensures data == EntryData(input)
  {
    data := map[KeyUsername := input[KeyUsername], KeyPassword := input[KeyPassword], KeyVat := input[KeyVat]];
    ghost var visited: set<string> := {};
    var i := 0;
    while i < |OptionalEntryKeys|
      invariant 0 <= i <= |OptionalEntryKeys|
      invariant visited <= EntryKeys - RequiredEntryKeys
      invariant forall j :: 0 <= j < i ==> OptionalEntryKeys[j] in visited
      invariant data.Keys == input.Keys * (RequiredEntryKeys + visited)
      invariant forall k :: k in data ==> data[k] == input[k]
    {
      var key := OptionalEntryKeys[i];
      if key in input {
        data := data[key := input[key]];
      }
      visited := visited + {key};
      i := i + 1;
    }
    assert visited == EntryKeys - RequiredEntryKeys by {
      assert OptionalEntryKeys[0] in visited && OptionalEntryKeys[1] in visited && OptionalEntryKeys[2] in visited;
      assert OptionalEntryKeys[3] in visited && OptionalEntryKeys[4] in visited;
    }
  }

  /** A validated form is stored whole: every key the form can hold is an entry key. */
  lemma ValidatedFormStoredWhole(raw: Data)
    requires Validate(UserSchema, raw).Ok?
    ensures EntryData(Validate(UserSchema, raw).value) == Validate(UserSchema, raw).value
  {
    UserSchemaKeys();
  }

  lemma UserSchemaKeys()
    ensures Keys(UserSchema) == EntryKeys
  {
    forall k | k in Keys(UserSchema) ensures k in EntryKeys {
      var i :| 0 <= i < |UserSchema| && UserSchema[i].key == k;
    }
    assert UserSchema[0].key == KeyUsername;
    assert UserSchema[1].key == KeyPassword;
    assert UserSchema[2].key == KeyVat;
    assert UserSchema[3].key == KeyFixedPrice;
    assert UserSchema[4].key == KeyDeliverySiteId;
    assert UserSchema[5].key == KeyDefaultUnitPrice;
    assert UserSchema[6].key == KeyDefaultBasePrice;
    assert UserSchema[7].key == KeyIncludeTransferCosts;
  }

  /** Credentials and VAT alone give a three-key entry. */
  lemma MinimalEntryData(input: Data)
    requires input.Keys == RequiredEntryKeys
    ensures EntryData(input) == input && |EntryData(input).Keys| == 3
  {
    assert input.Keys * EntryKeys == input.Keys;
  }

  // ---------------------------------------------------------------------
  // Errors

  /** The exceptions the flow distinguishes; `Unexpected` is every other
      exception, including a missing key or a wrongly typed value. */
  datatype FlowException =
    | AuthFailed
    | InvalidDeliverySite
    | Timeout
    | ConnectionFailed
    | BadValue
    | Unexpected

  /** `_handle_errors`: one `base` error per exception. */
  function HandleErrors(ex: FlowException): (r: map<string, string>)
    ensures r.Keys == {"base"}
    ensures r["base"] == "invalid_auth" <==> ex == AuthFailed
    ensures r["base"] == "invalid_delivery_site_id" <==> ex == InvalidDeliverySite
    ensures r["base"] == "cannot_connect" <==> ex != AuthFailed && ex != InvalidDeliverySite
  {
    match ex
    case AuthFailed => map["base" := "invalid_auth"]
    case InvalidDeliverySite => map["base" := "invalid_delivery_site_id"]
    case _ => map["base" := "cannot_connect"]
  }

  /** The exception types the `user` step hands to `_handle_errors`. */
  predicate CaughtByUserStep(ex: FlowException) {
    ex in {AuthFailed, InvalidDeliverySite, Timeout, ConnectionFailed, BadValue}
  }

  /** The exception types the re-authentication step hands to `_handle_errors`. */
  predicate CaughtByReauthStep(ex: FlowException) {
    ex in {AuthFailed, Timeout, ConnectionFailed, BadValue}
  }

  /** A step's errors: the listed exceptions through `_handle_errors`, the
      rest through the broad handler. */
  function StepErrors(listed: bool, ex: FlowException): map<string, string> {
    if listed then HandleErrors(ex) else map["base" := "cannot_connect"]
  }

  function UserStepErrors(ex: FlowException): map<string, string> {
    StepErrors(CaughtByUserStep(ex), ex)
  }

  function ReauthErrors(ex: FlowException): map<string, string> {
    StepErrors(CaughtByReauthStep(ex), ex)
  }

  /** The `user` step shows exactly the error `_handle_errors` assigns. */
  lemma UserStepErrorsAreHandleErrors(ex: FlowException)
    ensures UserStepErrors(ex) == HandleErrors(ex)
  {
  }

  /** Re-authentication agrees with `_handle_errors` except for an invalid
      delivery site, which it reports as a connection failure. */
  lemma ReauthErrorsDifferOnlyOnSite(ex: FlowException)
    ensures ReauthErrors(ex) == HandleErrors(ex) <==> ex != InvalidDeliverySite
    ensures ReauthErrors(ex)["base"] == (if ex == AuthFailed then "invalid_auth" else "cannot_connect")
  {
  }

  // ---------------------------------------------------------------------
  // Contract-type check

  const SupportedTypes: seq<string> := ["PERUS", "KAYTTO", "MARK", "PORS", "VALTTI"]

  /** Some supported marker occurs in the contract type. */
  predicate IsSupported(contractType: string) {
    exists i :: 0 <= i < |SupportedTypes| && Contains(contractType, SupportedTypes[i])
  }

  /** A contract type passes the flow's check exactly when the sensor
      platform has a price sensor for it. */
  lemma SupportedIffPriceSensor(contractType: string)
    ensures IsSupported(contractType) <==> Sensor.SelectPriceSensor(false, contractType).Some?
  {
    if Sensor.SelectPriceSensor(false, contractType).Some? {
      if Contains(contractType, "PERUS") { assert Contains(contractType, SupportedTypes[0]); }
      else if Contains(contractType, "KAYTTO") { assert Contains(contractType, SupportedTypes[1]); }
      else if Contains(contractType, "MARK") { assert Contains(contractType, SupportedTypes[2]); }
      else if Contains(contractType, "PORS") { assert Contains(contractType, SupportedTypes[3]); }
      else { assert Contains(contractType, SupportedTypes[4]); }
    }
  }

  datatype ContractCheck = ContractCheck(supported: bool, contractType: Option<string>)

  /** `_validate_contract_type`: a contract type that cannot be read does
      not block the setup. */
  function ValidateContractType(lookup: Result<string, FlowException>): (r: ContractCheck)
    ensures r.supported <==> lookup.Err? || IsSupported(lookup.value)
    ensures r.contractType.Some? <==> !r.supported
    ensures !r.supported ==> r.contractType == Some(lookup.value)
  {
    match lookup
    case Err(_) => ContractCheck(true, None)
    case Ok(ct) => if IsSupported(ct) then ContractCheck(true, None) else ContractCheck(false, Some(ct))
  }

  // ---------------------------------------------------------------------
  // The user step

  /** What the outside world answers during one step: the exception each
      call raises, if any, the contract type the account reports, the
      clock, and the unique IDs already configured. */
  datatype FlowEnv = FlowEnv(
    priceFetch: Option<FlowException>,
    login: Option<FlowException>,
    selectSite: Option<FlowException>,
    contractType: Result<string, FlowException>,
    now: nat,
    configured: set<string>)

  datatype FlowResult =
    | CreateEntry(title: string, data: Data, uniqueId: string)
    | ShowForm(step: string, errors: map<string, string>, placeholders: map<string, string>)
    | Abort(reason: string)

  /** How the body of the `user` step's `try` ends before the duplicate check. */
  datatype Attempt =
    | Failed(ex: FlowException)
    | Unsupported(contractType: Option<string>)
    | Ready(uniqueId: string, title: string, data: Data)

  function SiteText(v: Value): Option<string> {
    if v.VStr? then Some(v.s) else None
  }

  /** The `user` step's `try` body up to `async_set_unique_id`: build the
      API client (reading the VAT), log in, select the delivery site,
      check the contract type unless the fixed-price flag is set, then
      name the entry. */
  function UserAttempt(env: FlowEnv, u: Data): (r: Attempt)
    ensures r.Ready? ==> r.data == EntryData(u)
    ensures r.Ready? ==> KeyUsername in u && u[KeyUsername].VStr?
    ensures r.Ready? ==>
      (r.uniqueId, r.title) == UniqueIdAndTitle(u[KeyUsername].s, SiteText(Get(u, KeyDeliverySiteId, VNone)), env.now)
    ensures r.Ready? ==> env.priceFetch.None? && env.login.None?
    ensures r.Ready? && KeyDeliverySiteId in u ==> env.selectSite.None?
    ensures r.Ready? && !Truthy(Get(u, KeyFixedPrice, VBool(false))) ==> ValidateContractType(env.contractType).supported
    ensures r.Unsupported? <==>
      && KeyVat in u && Divisible(u[KeyVat]) && KeyUsername in u && KeyPassword in u
      && env.priceFetch.None? && env.login.None? && (KeyDeliverySiteId in u ==> env.selectSite.None?)
      && !Truthy(Get(u, KeyFixedPrice, VBool(false))) && !ValidateContractType(env.contractType).supported
    ensures KeyVat !in u ==> r == Failed(Unexpected)
    ensures KeyVat in u && env.priceFetch.Some? ==> r == Failed(env.priceFetch.value)
    ensures KeyVat in u && env.priceFetch.None? && !(Divisible(u[KeyVat]) && KeyUsername in u && KeyPassword in u) ==>
      r == Failed(Unexpected)
    ensures KeyVat in u && env.priceFetch.None? && Divisible(u[KeyVat]) && KeyUsername in u && KeyPassword in u ==>
      && (env.login.Some? ==> r == Failed(env.login.value))
      && (env.login.None? && KeyDeliverySiteId in u && env.selectSite.Some? ==> r == Failed(env.selectSite.value))
  {
    if KeyVat !in u then Failed(Unexpected)
    else if env.priceFetch.Some? then Failed(env.priceFetch.value)
    else if !Divisible(u[KeyVat]) then Failed(Unexpected)
    else if KeyUsername !in u || KeyPassword !in u then Failed(Unexpected)
    else if env.login.Some? then Failed(env.login.value)
    else if KeyDeliverySiteId in u && env.selectSite.Some? then Failed(env.selectSite.value)
    else if !Truthy(Get(u, KeyFixedPrice, VBool(false))) && !ValidateContractType(env.contractType).supported then
      Unsupported(ValidateContractType(env.contractType).contractType)
    else if !u[KeyUsername].VStr? then Failed(Unexpected)
    else
      var idTitle := UniqueIdAndTitle(u[KeyUsername].s, SiteText(Get(u, KeyDeliverySiteId, VNone)), env.now);
      Ready(idTitle.0, idTitle.1, EntryData(u))
  }

  /** The form re-shown for an unsupported contract type, naming it (an
      empty one as "Unknown"). */
  function UnsupportedForm(contractType: Option<string>): (r: FlowResult)
    ensures r.ShowForm? && r.step == "user" && r.errors == map["base" := "unsupported_contract_type"]
    ensures r.placeholders.Keys == {"contract_type"} && r.placeholders["contract_type"] != ""
    ensures contractType.Some? && contractType.value != "" ==> r.placeholders["contract_type"] == contractType.value
    ensures !(contractType.Some? && contractType.value != "") ==> r.placeholders["contract_type"] == "Unknown"
  {
    var shown := if contractType.Some? && contractType.value != "" then contractType.value else "Unknown";
    ShowForm("user", map["base" := "unsupported_contract_type"], map["contract_type" := shown])
  }

  /** The `user` step as written: the duplicate check raises its abort
      inside the `try`, whose broad handler turns it into a form error. */
  function UserStepAsWritten(env: FlowEnv, input: Option<Data>): (r: FlowResult)
    ensures input.Some? && UserAttempt(env, input.value).Ready? && UserAttempt(env, input.value).uniqueId in env.configured ==>
      r == ShowForm("user", map["base" := "cannot_connect"], map[])
    ensures r.Abort? ==> false
  {
    if input.None? then ShowForm("user", map[], map[])
    else match UserAttempt(env, input.value)
      case Failed(ex) => ShowForm("user", UserStepErrors(ex), map[])
      case Unsupported(ct) => UnsupportedForm(ct)
      case Ready(uid, title, data) =>
        if uid in env.configured then ShowForm("user", map["base" := "cannot_connect"], map[])
        else CreateEntry(title, data, uid)
  }

  /** The `user` step with the duplicate check aborting the flow, as Home
      Assistant's `_abort_if_unique_id_configured` is meant to. */
  function UserStep(env: FlowEnv, input: Option<Data>): (r: FlowResult)
    ensures input.None? ==> r == ShowForm("user", map[], map[])
    ensures r.CreateEntry? ==> input.Some? && r.uniqueId !in env.configured && r.data == EntryData(input.value)
    ensures r.CreateEntry? ==> KeyUsername in input.value && input.value[KeyUsername].VStr?
    ensures r.CreateEntry? ==>
      (r.uniqueId, r.title)
      == UniqueIdAndTitle(input.value[KeyUsername].s, SiteText(Get(input.value, KeyDeliverySiteId, VNone)), env.now)
    ensures r.Abort? <==> input.Some? && UserAttempt(env, input.value).Ready? && UserAttempt(env, input.value).uniqueId in env.configured
    ensures r.Abort? ==> r.reason == "already_configured"
    ensures !r.Abort? ==> r == UserStepAsWritten(env, input)
    ensures input.Some? ==>
      var a := UserAttempt(env, input.value);
      && (a.Ready? && a.uniqueId !in env.configured ==> r == CreateEntry(a.title, a.data, a.uniqueId))
      && (a.Failed? ==> r == ShowForm("user", UserStepErrors(a.ex), map[]))
      && (a.Unsupported? ==> r == UnsupportedForm(a.contractType))
  {
    if input.Some? && UserAttempt(env, input.value).Ready? && UserAttempt(env, input.value).uniqueId in env.configured then
      Abort("already_configured")
    else UserStepAsWritten(env, input)
  }

  /** Resubmitting the form for the same delivery site with the username
      in another letter case names the same entry, so the step aborts. */
  lemma CaseVariantSubmissionAborts(env: FlowEnv, u1: Data, u2: Data)
    requires UserStep(env, Some(u1)).CreateEntry?
    requires KeyUsername in u2 && u2[KeyUsername].VStr?
    requires ToLower(u2[KeyUsername].s) == ToLower(u1[KeyUsername].s)
    requires Get(u2, KeyDeliverySiteId, VNone) == Get(u1, KeyDeliverySiteId, VNone)
    requires Get(u1, KeyDeliverySiteId, VNone).VStr? && Get(u1, KeyDeliverySiteId, VNone).s != ""
    requires UserAttempt(env, u2).Ready?
    ensures UserStep(env.(configured := env.configured + {UserStep(env, Some(u1)).uniqueId}), Some(u2))
         == Abort("already_configured")
  {
    var site := SiteText(Get(u1, KeyDeliverySiteId, VNone));
    UniqueIdIgnoresCase(u1[KeyUsername].s, u2[KeyUsername].s, site, env.now);
    var env2 := env.(configured := env.configured + {UserStep(env, Some(u1)).uniqueId});
    assert UserAttempt(env2, u2) == UserAttempt(env, u2);
  }

  /** A wrong password shows `invalid_auth` on the user form, and a rejected
      delivery site shows `invalid_delivery_site_id`. */
  lemma UserStepReportsLoginAndSiteErrors(env: FlowEnv, u: Data)
    requires KeyVat in u && Divisible(u[KeyVat]) && KeyUsername in u && KeyPassword in u
    requires env.priceFetch.None?
    ensures env.login == Some(AuthFailed) ==>
      UserStep(env, Some(u)) == ShowForm("user", map["base" := "invalid_auth"], map[])
    ensures env.login.None? && KeyDeliverySiteId in u && env.selectSite == Some(InvalidDeliverySite) ==>
      UserStep(env, Some(u)) == ShowForm("user", map["base" := "invalid_delivery_site_id"], map[])
  {
    UserStepErrorsAreHandleErrors(AuthFailed);
    UserStepErrorsAreHandleErrors(InvalidDeliverySite);
  }

  /** A duplicate submission is reported as a connection failure by the
      step as written, and aborts the corrected step. */
  lemma DuplicateEntryShowsConnectionError(env: FlowEnv, u: Data)
    requires UserAttempt(env, u).Ready? && UserAttempt(env, u).uniqueId in env.configured
    ensures UserStepAsWritten(env, Some(u)).ShowForm?
    ensures UserStepAsWritten(env, Some(u)).errors == map["base" := "cannot_connect"]
    ensures UserStep(env, Some(u)) == Abort("already_configured")
  {
  }

  /** With the fixed-price flag set, the reported contract type plays no part. */
  lemma FixedPriceSkipsContractCheck(env: FlowEnv, u: Data, other: Result<string, FlowException>)
    requires Truthy(Get(u, KeyFixedPrice, VBool(false)))
    ensures UserStep(env, Some(u)) == UserStep(env.(contractType := other), Some(u))
  {
  }

  /** A validated form fails only through an exception the outside world raised. */
  lemma ValidatedFormFailsOnlyExternally(env: FlowEnv, raw: Data)
    requires Validate(UserSchema, raw).Ok?
    requires env.priceFetch.None? && env.login.None? && env.selectSite.None?
    ensures !UserAttempt(env, Validate(UserSchema, raw).value).Failed?
  {
    UserFormTyped(raw);
  }

  /** An entry the flow creates always gets a price sensor once the
      coordinator reports the same contract type the flow checked. */
  lemma CreatedEntryGetsPriceSensor(env: FlowEnv, u: Data, coordinatorData: Data)
    requires UserStep(env, Some(u)).CreateEntry?
    requires env.contractType.Ok?
    requires Get(coordinatorData, KeyContractType, VNone) == VStr(env.contractType.value)
    ensures Sensor.SetupEntities(UserStep(env, Some(u)).data, coordinatorData)[0].Price?
  {
    var data := UserStep(env, Some(u)).data;
    assert Get(data, KeyFixedPrice, VBool(false)) == Get(u, KeyFixedPrice, VBool(false));
    if !Truthy(Get(u, KeyFixedPrice, VBool(false))) {
      SupportedIffPriceSensor(env.contractType.value);
    }
  }

  // ---------------------------------------------------------------------
  // Re-authentication

  /** The entry data after re-authentication: only the password changes. */
  function ReauthData(data: Data, password: Value): (r: Data)
    ensures r.Keys == data.Keys + {KeyPassword}
    ensures r[KeyPassword] == password
    ensures forall k :: k in data && k != KeyPassword ==> r[k] == data[k]
  {
    data[KeyPassword := password]
  }

  /** Re-authenticating twice keeps only the last password. */
  lemma ReauthLastWins(data: Data, p1: Value, p2: Value)
    ensures ReauthData(ReauthData(data, p1), p2) == ReauthData(data, p2)
  {
  }

  /** Re-authentication never changes which sensors an entry gets. */
  lemma ReauthKeepsSensors(data: Data, password: Value, coordinatorData: Data)
    ensures Sensor.SetupEntities(ReauthData(data, password), coordinatorData) == Sensor.SetupEntities(data, coordinatorData)
  {
    assert Get(ReauthData(data, password), KeyFixedPrice, VBool(false)) == Get(data, KeyFixedPrice, VBool(false));
    assert Get(ReauthData(data, password), KeyIncludeTransferCosts, VNone) == Get(data, KeyIncludeTransferCosts, VNone);
  }

  datatype ReauthOutcome = ReauthOutcome(result: FlowResult, newData: Option<Data>)

  /** `async_step_reauth_confirm`: with the new password, rebuild the API
      client from the entry's VAT, log in with the entry's username, and on
      success store the password and finish. */
  function ReauthStep(env: FlowEnv, entry: Option<ConfigEntry>, input: Option<Data>): (r: ReauthOutcome)
    ensures input.None? ==> r == ReauthOutcome(ShowForm("reauth_confirm", map[], map[]), None)
    ensures input.Some? && entry.None? ==> r == ReauthOutcome(Abort("reauth_failed"), None)
    ensures r.newData.Some? <==> r.result == Abort("reauth_successful")
    ensures r.newData.Some? ==>
      && entry.Some? && input.Some? && KeyPassword in input.value
      && r.newData.value == ReauthData(entry.value.data, input.value[KeyPassword])
    ensures r.newData.Some? ==> env.priceFetch.None? && env.login.None?
    ensures r.result.ShowForm? && input.Some? ==> r.result.errors.Keys == {"base"}
    ensures input.Some? && entry.Some? ==>
      var d, u := entry.value.data, input.value;
      var loginReached := KeyVat in d && env.priceFetch.None? && Divisible(d[KeyVat]) && KeyUsername in d && KeyPassword in u;
      && (KeyVat in d && env.priceFetch.Some? ==> r == ReauthOutcome(ShowForm("reauth_confirm", ReauthErrors(env.priceFetch.value), map[]), None))
      && (!loginReached && !(KeyVat in d && env.priceFetch.Some?) ==>
            r == ReauthOutcome(ShowForm("reauth_confirm", ReauthErrors(Unexpected), map[]), None))
      && (loginReached && env.login.Some? ==> r == ReauthOutcome(ShowForm("reauth_confirm", ReauthErrors(env.login.value), map[]), None))
      && (loginReached && env.login.None? ==> r == ReauthOutcome(Abort("reauth_successful"), Some(ReauthData(d, u[KeyPassword]))))
  {
    if input.None? then ReauthOutcome(ShowForm("reauth_confirm", map[], map[]), None)
    else if entry.None? then ReauthOutcome(Abort("reauth_failed"), None)
    else
      var d := entry.value.data;
      var u := input.value;
      var fail := if KeyVat !in d then Some(Unexpected)
        else if env.priceFetch.Some? then env.priceFetch
        else if !Divisible(d[KeyVat]) then Some(Unexpected)
        else if KeyUsername !in d || KeyPassword !in u then Some(Unexpected)
        else env.login;
      if fail.Some? then ReauthOutcome(ShowForm("reauth_confirm", ReauthErrors(fail.value), map[]), None)
      else ReauthOutcome(Abort("reauth_successful"), Some(ReauthData(d, u[KeyPassword])))
  }

  // ---------------------------------------------------------------------
  // YAML import

  const KeyYamlContractType: string := "contract_type"

  function ImportUniqueId(username: string): string {
    ToLower(username) + "_yaml_import"
  }

  /** Whether the legacy contract type selects fixed pricing. */
  predicate ImportIsFixed(contractType: string) {
    ToUpper(contractType) == "FIXED"
  }

  /** The optional keys an import copies differ from the five it always writes. */
  lemma ImportKeysDistinct()
    ensures {KeyUsername, KeyPassword, KeyVat, KeyFixedPrice, KeyIncludeTransferCosts}
          !! {KeyDefaultUnitPrice, KeyDefaultBasePrice, KeyDeliverySiteId}
  {
  }

  /** The entry data an import stores: credentials, VAT (25.5 if absent),
      the fixed-price flag derived from the legacy contract type, the
      transfer-cost flag (False if absent), and each price override or
      delivery site the YAML gives. */
  function ImportEntryData(input: Data, contractType: string): (r: Data)
    requires KeyUsername in input && KeyPassword in input
    ensures r.Keys == {KeyUsername, KeyPassword, KeyVat, KeyFixedPrice, KeyIncludeTransferCosts}
      + input.Keys * {KeyDefaultUnitPrice, KeyDefaultBasePrice, KeyDeliverySiteId}
    ensures r[KeyFixedPrice] == VBool(ImportIsFixed(contractType))
    ensures r[KeyVat] == Get(input, KeyVat, VNum(DefaultVat))
    ensures r[KeyIncludeTransferCosts] == Get(input, KeyIncludeTransferCosts, VBool(false))
    ensures forall k :: k in {KeyUsername, KeyPassword, KeyDefaultUnitPrice, KeyDefaultBasePrice, KeyDeliverySiteId} && k in input ==>
      r[k] == input[k]
  {
    var base := map[
      KeyUsername := input[KeyUsername],
      KeyPassword := input[KeyPassword],
      KeyVat := Get(input, KeyVat, VNum(DefaultVat)),
      KeyFixedPrice := VBool(ImportIsFixed(contractType)),
      KeyIncludeTransferCosts := Get(input, KeyIncludeTransferCosts, VBool(false))];
    var present := map k | k in input.Keys * {KeyDefaultUnitPrice, KeyDefaultBasePrice, KeyDeliverySiteId} :: input[k];
    ImportKeysDistinct();
    base + present
  }

  /** `async_step_import`: the duplicate check runs before the `try`, so a
      configured import aborts; inside it an authentication failure aborts
      with `invalid_auth` and any other exception with `unknown`. */
  function ImportStep(env: FlowEnv, input: Data): (r: FlowResult)
    requires KeyUsername in input && input[KeyUsername].VStr?
    ensures ImportUniqueId(input[KeyUsername].s) in env.configured ==> r == Abort("already_configured")
    ensures r.CreateEntry? ==>
      && r.uniqueId == ImportUniqueId(input[KeyUsername].s)
      && r.title == "Helen Energy (" + input[KeyUsername].s + ")"
      && KeyPassword in input
      && Get(input, KeyYamlContractType, VStr("")).VStr?
      && r.data == ImportEntryData(input, Get(input, KeyYamlContractType, VStr("")).s)
    ensures r.CreateEntry? ==> env.priceFetch.None? && env.login.None?
    ensures r.Abort? ==> r.reason in {"already_configured", "invalid_auth", "unknown"}
    ensures r.Abort? && r.reason == "invalid_auth" ==> env.priceFetch == Some(AuthFailed) || env.login == Some(AuthFailed)
    ensures ImportUniqueId(input[KeyUsername].s) !in env.configured ==>
      var loginReached := env.priceFetch.None? && Divisible(Get(input, KeyVat, VNum(DefaultVat))) && KeyPassword in input;
      && (env.priceFetch == Some(AuthFailed) || (loginReached && env.login == Some(AuthFailed)) ==> r == Abort("invalid_auth"))
      && (env.priceFetch.Some? && env.priceFetch != Some(AuthFailed) ==> r == Abort("unknown"))
      && (env.priceFetch.None? && !loginReached ==> r == Abort("unknown"))
      && (loginReached && env.login.Some? && env.login != Some(AuthFailed) ==> r == Abort("unknown"))
      && (loginReached && env.login.None? && !Get(input, KeyYamlContractType, VStr("")).VStr? ==> r == Abort("unknown"))
      && (loginReached && env.login.None? && Get(input, KeyYamlContractType, VStr("")).VStr? ==> r.CreateEntry?)
    ensures !r.ShowForm?
  {
    var username := input[KeyUsername].s;
    var uid := ImportUniqueId(username);
    if uid in env.configured then Abort("already_configured")
    else
      var vat := Get(input, KeyVat, VNum(DefaultVat));
      var contractType := Get(input, KeyYamlContractType, VStr(""));
      var fail := if env.priceFetch.Some? then env.priceFetch
        else if !Divisible(vat) then Some(Unexpected)
        else if KeyPassword !in input then Some(Unexpected)
        else if env.login.Some? then env.login
        else if !contractType.VStr? then Some(Unexpected)
        else None;
      if fail == Some(AuthFailed) then Abort("invalid_auth")
      else if fail.Some? then Abort("unknown")
      else CreateEntry("Helen Energy (" + username + ")", ImportEntryData(input, contractType.s), uid)
  }

  /** A case-insensitive usernames match gives the same import ID, so the
      second import aborts. */
  lemma ImportIdIgnoresCase(env: FlowEnv, input1: Data, input2: Data)
    requires KeyUsername in input1 && input1[KeyUsername].VStr?
    requires KeyUsername in input2 && input2[KeyUsername].VStr?
    requires ToLower(input1[KeyUsername].s) == ToLower(input2[KeyUsername].s)
    requires ImportStep(env, input1).CreateEntry?
    ensures ImportStep(env.(configured := env.configured + {ImportStep(env, input1).uniqueId}), input2)
      == Abort("already_configured")
  {
  }

  /** An imported legacy "fixed" contract, in any letter case, always gets
      the fixed-price sensor; any other legacy contract type defers to the
      contract the account reports. */
  lemma ImportedContractDispatch(env: FlowEnv, input: Data, coordinatorData: Data)
    requires KeyUsername in input && input[KeyUsername].VStr?
    requires ImportStep(env, input).CreateEntry?
    ensures var ct := Get(input, KeyYamlContractType, VStr("")).s;
      var entities := Sensor.SetupEntities(ImportStep(env, input).data, coordinatorData);
      && (ImportIsFixed(ct) ==> entities[0] == Sensor.Price(Sensor.FixedPriceElectricity))
      && (!ImportIsFixed(ct) ==> (entities[0].Price? <==>
            Sensor.Dispatch(VBool(false), Get(coordinatorData, KeyContractType, VNone)).Some?))
  {
    var data := ImportStep(env, input).data;
    assert KeyFixedPrice in data;
    assert Get(data, KeyFixedPrice, VBool(false)) == data[KeyFixedPrice];
  }
}

=== FILE: integration.dfy ===
/** The integration's entry points: the legacy YAML configuration schema,
    `async_setup` (which imports a YAML configuration into a config entry
    unless one for the same username exists) and `async_setup_entry`. */
module Integration {
  import opened Common
  import opened Schema
  import ConfigFlow
  import Migration

  /** The legacy `helen_energy:` YAML block. */
  const YamlSchema: Schema := [
    Field(KeyUsername, true, None, IsString),
    Field(KeyPassword, true, None, IsString),
    Field(KeyVat, false, Some(VNum(DefaultVat)), InRange(Some(0.0), Some(100.0))),
    Field(ConfigFlow.KeyYamlContractType, false, Some(VStr("")), IsString),
    Field(KeyDefaultUnitPrice, false, None, InRange(Some(0.0), None)),
    Field(KeyDefaultBasePrice, false, None, InRange(Some(0.0), None)),
    Field(KeyDeliverySiteId, false, None, IsString),
    Field(KeyIncludeTransferCosts, false, Some(VBool(false)), IsBool)
  ]

  /** `CONFIG_SCHEMA`: the integration's block, when present, must be a
      dictionary the YAML schema accepts; every other top-level key passes
      through untouched. */
  function ConfigSchema(config: Data): (r: Result<Data, SchemaError>)
    ensures Domain !in config ==> r == Ok(config)
    ensures r.Ok? ==> r.value.Keys == config.Keys
    ensures r.Ok? ==> forall k :: k in config && k != Domain ==> r.value[k] == config[k]
    ensures Domain in config ==>
      (r.Ok? <==> config[Domain].VDict? && Validate(YamlSchema, config[Domain].d).Ok?)
    ensures r.Ok? && Domain in config ==>
      r.value[Domain] == VDict(Validate(YamlSchema, config[Domain].d).value)
  {
    if Domain !in config then Ok(config)
    else if !config[Domain].VDict? then Err(Invalid(Domain))
    else match Validate(YamlSchema, config[Domain].d)
      case Err(e) => Err(e)
      case Ok(d) => Ok(config[Domain := VDict(d)])
  }

  /** Credentials alone are completed with the default VAT, an empty
      contract type and transfer costs off; empty strings are accepted. */
  lemma YamlCredentialsOnly(username: string, password: string)
    ensures var conf := map[KeyUsername := VStr(username), KeyPassword := VStr(password)];
      Validate(YamlSchema, conf) == Ok(conf[KeyVat := VNum(DefaultVat)]
        [ConfigFlow.KeyYamlContractType := VStr("")][KeyIncludeTransferCosts := VBool(false)])
  {
    CredentialsOnly(YamlSchema, map[KeyUsername := VStr(username), KeyPassword := VStr(password)]);
  }

  /** The same statement for a schema only known to equal the YAML schema,
      which keeps the solver from unfolding validation on the literal. */
  lemma CredentialsOnly(fields: seq<Field>, conf: Data)
    requires fields == YamlSchema
    requires conf.Keys == {KeyUsername, KeyPassword} && conf[KeyUsername].VStr? && conf[KeyPassword].VStr?
    ensures Validate(fields, conf) == Ok(conf[KeyVat := VNum(DefaultVat)]
        [ConfigFlow.KeyYamlContractType := VStr("")][KeyIncludeTransferCosts := VBool(false)])
  {
    CredentialsConform(fields, conf);
    CredentialsFilledKeys(fields, conf);
    CredentialsDefaults(fields, conf);
    var d := Validate(fields, conf).value;
    assert d[KeyUsername] == conf[KeyUsername] && d[KeyPassword] == conf[KeyPassword];
    CompletedCredentials(d, conf);
  }

  /** A dictionary with exactly the credentials and the three defaults is
      the credentials extended by those defaults. */
  lemma CompletedCredentials(d: Data, conf: Data)
    requires conf.Keys == {KeyUsername, KeyPassword}
    requires d.Keys == {KeyUsername, KeyPassword, KeyVat, ConfigFlow.KeyYamlContractType, KeyIncludeTransferCosts}
    requires d[KeyUsername] == conf[KeyUsername] && d[KeyPassword] == conf[KeyPassword]
    requires d[KeyVat] == VNum(DefaultVat) && d[ConfigFlow.KeyYamlContractType] == VStr("")
    requires d[KeyIncludeTransferCosts] == VBool(false)
    ensures d == conf[KeyVat := VNum(DefaultVat)][ConfigFlow.KeyYamlContractType := VStr("")][KeyIncludeTransferCosts := VBool(false)]
  {
    var expected := conf[KeyVat := VNum(DefaultVat)]
      [ConfigFlow.KeyYamlContractType := VStr("")][KeyIncludeTransferCosts := VBool(false)];
    forall k | k in d ensures d[k] == expected[k] {
      assert k == KeyUsername || k == KeyPassword || k == KeyVat
        || k == ConfigFlow.KeyYamlContractType || k == KeyIncludeTransferCosts;
    }
  }

  lemma CredentialsConform(fields: seq<Field>, conf: Data)
    requires fields == YamlSchema
    requires conf.Keys == {KeyUsername, KeyPassword} && conf[KeyUsername].VStr? && conf[KeyPassword].VStr?
    ensures Validate(fields, conf).Ok?
  {
    assert fields[0].key == KeyUsername && fields[1].key == KeyPassword;
    assert conf.Keys <= Keys(fields);
    assert Conforms(fields, conf);
  }

  lemma CredentialsDefaults(fields: seq<Field>, conf: Data)
    requires fields == YamlSchema
    requires conf.Keys == {KeyUsername, KeyPassword}
    requires Validate(fields, conf).Ok?
    ensures var d := Validate(fields, conf).value;
      && KeyVat in d && d[KeyVat] == VNum(DefaultVat)
      && ConfigFlow.KeyYamlContractType in d && d[ConfigFlow.KeyYamlContractType] == VStr("")
      && KeyIncludeTransferCosts in d && d[KeyIncludeTransferCosts] == VBool(false)
  {
    var d := Validate(fields, conf).value;
    assert fields[2].key == KeyVat && fields[3].key == ConfigFlow.KeyYamlContractType;
    assert fields[7].key == KeyIncludeTransferCosts;
    assert fields[2].key !in conf && fields[3].key !in conf && fields[7].key !in conf;
    assert d[fields[2].key] == fields[2].default.value;
    assert d[fields[3].key] == fields[3].default.value;
    assert d[fields[7].key] == fields[7].default.value;
  }

  lemma CredentialsFilledKeys(fields: seq<Field>, conf: Data)
    requires fields == YamlSchema
    requires conf.Keys == {KeyUsername, KeyPassword}
    ensures FilledKeys(fields, conf) == {KeyUsername, KeyPassword, KeyVat, ConfigFlow.KeyYamlContractType, KeyIncludeTransferCosts}
  {
    forall k | k in FilledKeys(fields, conf)
      ensures k in {KeyUsername, KeyPassword, KeyVat, ConfigFlow.KeyYamlContractType, KeyIncludeTransferCosts}
    {
      var i :| 0 <= i < |fields| && (fields[i].key in conf || fields[i].default.Some?) && fields[i].key == k;
      assert i in {0, 1, 2, 3, 7};
    }
    assert fields[0].key == KeyUsername && fields[1].key == KeyPassword && fields[2].key == KeyVat;
    assert fields[3].key == ConfigFlow.KeyYamlContractType && fields[7].key == KeyIncludeTransferCosts;
  }

  /** A VAT outside 0..100 is rejected. */
  lemma YamlRejectsVatOutOfRange(conf: Data)
    requires KeyVat in conf && conf[KeyVat].VNum? && (conf[KeyVat].x < 0.0 || conf[KeyVat].x > 100.0)
    ensures Validate(YamlSchema, conf).Err?
  {
    assert !FieldHolds(YamlSchema[2], conf);
  }

  /** A negative price override is rejected. */
  lemma YamlRejectsNegativePrice(conf: Data, key: string)
    requires key == KeyDefaultUnitPrice || key == KeyDefaultBasePrice
    requires key in conf && conf[key].VNum? && conf[key].x < 0.0
    ensures Validate(YamlSchema, conf).Err?
  {
    if key == KeyDefaultUnitPrice {
      assert !FieldHolds(YamlSchema[4], conf);
    } else {
      assert !FieldHolds(YamlSchema[5], conf);
    }
  }

  /** Both credentials are required. */
  lemma YamlRequiresCredentials(conf: Data)
    requires KeyUsername !in conf || KeyPassword !in conf
    ensures Validate(YamlSchema, conf).Err?
  {
    assert !FieldHolds(YamlSchema[0], conf) || !FieldHolds(YamlSchema[1], conf);
  }

  /** A zero price override passes the YAML schema but not the form, whose
      lower bound is 0.00001. */
  lemma ZeroPriceOnlyInYaml(conf: Data)
    requires KeyDefaultUnitPrice in conf && conf[KeyDefaultUnitPrice] == VNum(0.0)
    ensures Accepts(YamlSchema[4].check, conf[KeyDefaultUnitPrice])
    ensures Validate(ConfigFlow.UserSchema, conf).Err?
  {
    assert ConfigFlow.UserSchema[5].key == KeyDefaultUnitPrice;
    assert !FieldHolds(ConfigFlow.UserSchema[5], conf);
  }

  // ---------------------------------------------------------------------
  // async_setup

  datatype SetupResult = SetupResult(ok: bool, importData: Option<Data>)

  /** A config entry already exists for the YAML block's username, compared
      as `entry.data.get(username) == conf.get(username)`. */
  predicate HasEntryFor(entries: seq<ConfigEntry>, conf: Data) {
    exists i :: 0 <= i < |entries| && Get(entries[i].data, KeyUsername, VNone) == Get(conf, KeyUsername, VNone)
  }

  /** `async_setup`: always succeeds; it starts an import of the YAML block
      exactly when one is configured and no entry has its username. */
  function AsyncSetup(config: Data, entries: seq<ConfigEntry>): (r: SetupResult)
    requires Domain in config ==> config[Domain].VDict?
    ensures r.ok
    ensures r.importData.Some? <==> Domain in config && !HasEntryFor(entries, config[Domain].d)
    ensures r.importData.Some? ==> r.importData.value == config[Domain].d
  {
    if Domain !in config then SetupResult(true, None)
    else
      var conf := config[Domain].d;
      if HasEntryFor(entries, conf) then SetupResult(true, None)
      else SetupResult(true, Some(conf))
  }

  /** Once the import has created its entry, the next start-up imports nothing. */
  lemma ImportHappensOnce(config: Data, entries: seq<ConfigEntry>, env: ConfigFlow.FlowEnv,
                          entryId: string, version: nat)
    requires Domain in config && config[Domain].VDict?
    requires var conf := config[Domain].d; KeyUsername in conf && conf[KeyUsername].VStr?
    requires AsyncSetup(config, entries).importData.Some?
    requires ConfigFlow.ImportStep(env, config[Domain].d).CreateEntry?
    ensures var created := ConfigFlow.ImportStep(env, config[Domain].d);
      var added := entries + [ConfigEntry(entryId, version, created.title, created.data)];
      AsyncSetup(config, added).importData.None?
  {
    var conf := config[Domain].d;
    var created := ConfigFlow.ImportStep(env, conf);
    var added := entries + [ConfigEntry(entryId, version, created.title, created.data)];
    assert Get(added[|entries|].data, KeyUsername, VNone) == Get(conf, KeyUsername, VNone);
  }

  /** A validated YAML block always satisfies what `async_setup` and the
      import step need: a dictionary with a string username. */
  lemma ValidatedYamlImports(config: Data)
    requires Domain in config && ConfigSchema(config).Ok?
    ensures ConfigSchema(config).value[Domain].VDict?
    ensures var conf := ConfigSchema(config).value[Domain].d;
      KeyUsername in conf && conf[KeyUsername].VStr?
  {
    var d := config[Domain].d;
    assert YamlSchema[0].key == KeyUsername;
    assert KeyUsername in Validate(YamlSchema, d).value;
    ValidatedValuesPassChecks(YamlSchema, d, 0);
  }

  // ---------------------------------------------------------------------
  // async_setup_entry

  datatype EntrySetup = EntrySetup(ok: bool, entry: ConfigEntry)

  /** `async_setup_entry` as written: an entry whose version is not 1 is
      passed to the migration first, and setup stops if the migration
      fails. The migration rewrites only version-1 entries, so the gate
      never lets it act: set-up always succeeds on the entry as stored. */
  function SetupEntry(e: ConfigEntry, repr: Value -> string): (r: Result<EntrySetup, Migration.MigrationError>)
    ensures r == Ok(EntrySetup(true, e))
  {
    if e.version != 1 then
      match Migration.MigrateEntry(e, repr)
      case Err(err) => Err(err)
      case Ok(migrated) => Ok(EntrySetup(true, migrated))
    else Ok(EntrySetup(true, e))
  }

  /** `async_setup_entry` with the gate the migration expects: a version-1
      entry is migrated before set-up, any other entry is set up as stored. */
  function SetupEntryMigrating(e: ConfigEntry, repr: Value -> string): (r: Result<EntrySetup, Migration.MigrationError>)
    ensures e.version != 1 ==> r == Ok(EntrySetup(true, e))
    ensures e.version == 1 && KeyUsername !in e.data ==> r == Err(Migration.MissingUsername)
    ensures e.version == 1 && KeyUsername in e.data ==>
      && r.Ok? && r.value.ok
      && r.value.entry.version == 2
      && r.value.entry.entryId == e.entryId
      && r.value.entry.data.Keys == e.data.Keys + {KeyIncludeTransferCosts}
  {
    if e.version == 1 then
      match Migration.MigrateEntry(e, repr)
      case Err(err) => Err(err)
      case Ok(migrated) => Ok(EntrySetup(true, migrated))
    else Ok(EntrySetup(true, e))
  }

  /** The gate as written leaves a version-1 entry without the transfer-cost
      key at version 1 and without the key, while the migration it guards
      would have upgraded it. */
  lemma SetupEntryNeverMigrates(e: ConfigEntry, repr: Value -> string)
    requires e.version == 1 && KeyUsername in e.data && KeyIncludeTransferCosts !in e.data
    ensures SetupEntry(e, repr).Ok? && SetupEntry(e, repr).value.entry.version == 1
    ensures KeyIncludeTransferCosts !in SetupEntry(e, repr).value.entry.data
    ensures SetupEntryMigrating(e, repr).Ok? && SetupEntryMigrating(e, repr).value.entry.version == 2
    ensures KeyIncludeTransferCosts in SetupEntryMigrating(e, repr).value.entry.data
  {
  }
}

=== FILE: migration.dfy ===
/** Config-entry migration: a version-1 entry becomes version 2, gains
    `include_transfer_costs` (False) if it lacks it, and is retitled after
    its username. */
module Migration {
  import opened Common
  import Sensor
  import ConfigFlow

  /** Reading the username with `data[CONF_USERNAME]` raises KeyError when it is missing. */
  datatype MigrationError = MissingUsername

  /** Python's `str(v)` inside an f-string: a string is itself; other
      values are formatted by `repr`, which the model leaves abstract. */
  function PyStr(v: Value, repr: Value -> string): string {
    if v.VStr? then v.s else repr(v)
  }

  /** `async_migrate_entry`: returns the updated entry (the function's
      `True`) or the exception it raises. */
  function MigrateEntry(e: ConfigEntry, repr: Value -> string): (r: Result<ConfigEntry, MigrationError>)
    ensures e.version != 1 ==> r == Ok(e)
    ensures e.version == 1 && KeyUsername !in e.data ==> r == Err(MissingUsername)
    ensures e.version == 1 && KeyUsername in e.data ==> r.Ok?
    ensures r.Ok? && e.version == 1 ==>
      && r.value.entryId == e.entryId
      && r.value.version == 2
      && r.value.title == "Helen Energy (" + PyStr(e.data[KeyUsername], repr) + ")"
      && r.value.data.Keys == e.data.Keys + {KeyIncludeTransferCosts}
      && (forall k :: k in e.data ==> r.value.data[k] == e.data[k])
      && (KeyIncludeTransferCosts !in e.data ==> r.value.data[KeyIncludeTransferCosts] == VBool(false))
  {
    if e.version != 1 then Ok(e)
    else if KeyUsername !in e.data then Err(MissingUsername)
    else
      var data := if KeyIncludeTransferCosts in e.data then e.data
                  else e.data[KeyIncludeTransferCosts := VBool(false)];
      Ok(e.(data := data, title := "Helen Energy (" + PyStr(e.data[KeyUsername], repr) + ")", version := 2))
  }

  /** Migrating a migrated entry changes nothing. */
  lemma MigrateIdempotent(e: ConfigEntry, repr: Value -> string)
    requires MigrateEntry(e, repr).Ok?
    ensures MigrateEntry(MigrateEntry(e, repr).value, repr) == MigrateEntry(e, repr)
  {
  }

  /** The default the migration adds reads as the absent flag did, so the
      entry's sensors are unchanged. */
  lemma MigrationKeepsSensors(e: ConfigEntry, repr: Value -> string, coordinatorData: Data)
    requires MigrateEntry(e, repr).Ok?
    ensures Sensor.SetupEntities(MigrateEntry(e, repr).value.data, coordinatorData)
         == Sensor.SetupEntities(e.data, coordinatorData)
  {
    var d := MigrateEntry(e, repr).value.data;
    assert Get(d, KeyFixedPrice, VBool(false)) == Get(e.data, KeyFixedPrice, VBool(false));
    assert Truthy(Get(d, KeyIncludeTransferCosts, VNone)) == Truthy(Get(e.data, KeyIncludeTransferCosts, VNone));
  }

  /** Migration and re-authentication touch different parts of an entry,
      so their order does not matter. */
  lemma MigrateCommutesWithReauth(e: ConfigEntry, repr: Value -> string, password: Value)
    requires MigrateEntry(e, repr).Ok?
    ensures var reauthed := e.(data := ConfigFlow.ReauthData(e.data, password));
      && MigrateEntry(reauthed, repr).Ok?
      && MigrateEntry(reauthed, repr).value
         == MigrateEntry(e, repr).value.(data := ConfigFlow.ReauthData(MigrateEntry(e, repr).value.data, password))
  {
    var reauthed := e.(data := ConfigFlow.ReauthData(e.data, password));
    if e.version == 1 {
      assert reauthed.data[KeyUsername] == e.data[KeyUsername];
      var m1 := MigrateEntry(reauthed, repr).value;
      var m2 := MigrateEntry(e, repr).value.(data := ConfigFlow.ReauthData(MigrateEntry(e, repr).value.data, password));
      assert m1.data == m2.data;
    }
  }
}

=== FILE: schema.dfy ===
/** Dictionary validation as the integration's voluptuous schemas use it,
    on already-typed values: each field is a key, required or optional, an
    optional default, and a check (string, boolean, or a number within an
    inclusive range). Keys the schema does not name are rejected, defaults
    are filled in for missing keys and are themselves checked. */
module Schema {
  import opened Common

  datatype Check = IsString | IsBool | InRange(min: Option<real>, max: Option<real>)

  datatype Field = Field(key: string, required: bool, default: Option<Value>, check: Check)

  datatype SchemaError = ExtraKeys(keys: set<string>) | MissingKey(key: string) | Invalid(key: string)

  predicate Accepts(c: Check, v: Value) {
    match c
    case IsString => v.VStr?
    case IsBool => v.VBool?
    case InRange(lo, hi) => v.VNum? && (lo.Some? ==> lo.value <= v.x) && (hi.Some? ==> v.x <= hi.value)
  }

  function Keys(fields: seq<Field>): set<string> {
    set i | 0 <= i < |fields| :: fields[i].key
  }

  predicate DistinctKeys(fields: seq<Field>) {
    forall i, j :: 0 <= i < j < |fields| ==> fields[i].key != fields[j].key
  }

  /** A schema names each key once (a Python dict literal cannot repeat a key). */
  type Schema = fields: seq<Field> | DistinctKeys(fields) witness []

  /** One field is satisfied by the input: a present value passes the
      check; a missing key is optional or has a default that passes it. */
  predicate FieldHolds(f: Field, input: Data) {
    && (f.key in input ==> Accepts(f.check, input[f.key]))
    && (f.key !in input ==> !f.required || f.default.Some?)
    && (f.key !in input && f.default.Some? ==> Accepts(f.check, f.default.value))
  }

  /** The input is accepted by the schema. */
  predicate Conforms(fields: seq<Field>, input: Data) {
    && input.Keys <= Keys(fields)
    && forall i :: 0 <= i < |fields| ==> FieldHolds(fields[i], input)
  }

  /** The keys a validated dictionary has: those given, and those a default fills in. */
  function FilledKeys(fields: seq<Field>, input: Data): set<string> {
    set i | 0 <= i < |fields| && (fields[i].key in input || fields[i].default.Some?) :: fields[i].key
  }

  /** The first field the input violates, in schema order. */
  function FirstProblem(fields: seq<Field>, input: Data): (r: Option<SchemaError>)
    ensures r.None? <==> forall i :: 0 <= i < |fields| ==> FieldHolds(fields[i], input)
  {
    if |fields| == 0 then None
    else
      var f := fields[0];
      if !FieldHolds(f, input) then
        Some(if f.key !in input && f.default.None? then MissingKey(f.key) else Invalid(f.key))
      else
        var rest := FirstProblem(fields[1..], input);
        assert forall i :: 1 <= i < |fields| ==> fields[i] == fields[1..][i - 1];
        rest
  }

  /** The validated dictionary: given values kept, defaults filled in. */
  function Fill(fields: Schema, input: Data): (r: Data)
    ensures r.Keys == FilledKeys(fields, input)
    ensures forall i :: 0 <= i < |fields| && fields[i].key in input ==>
      r[fields[i].key] == input[fields[i].key]
    ensures forall i :: 0 <= i < |fields| && fields[i].key !in input && fields[i].default.Some? ==>
      r[fields[i].key] == fields[i].default.value
  {
    if |fields| == 0 then map[]
    else
      var f := fields[0];
      var rest := Fill(fields[1..], input);
      assert forall i :: 1 <= i < |fields| ==> fields[i] == fields[1..][i - 1];
      if f.key in input then rest[f.key := input[f.key]]
      else if f.default.Some? then rest[f.key := f.default.value]
      else
        assert f.key !in FilledKeys(fields[1..], input);
        rest
  }

  /** Validation: an error when the input has keys the schema does not name
      or violates a field; otherwise the input with defaults filled in. */
  function Validate(fields: Schema, input: Data): (r: Result<Data, SchemaError>)
    ensures r.Ok? <==> Conforms(fields, input)
    ensures r.Ok? ==> r.value.Keys == FilledKeys(fields, input)
    ensures r.Ok? ==> forall k :: k in input ==> r.value[k] == input[k]
    ensures r.Ok? ==> forall i :: 0 <= i < |fields| && fields[i].key !in input && fields[i].default.Some? ==>
      r.value[fields[i].key] == fields[i].default.value
    ensures r.Err? && !(input.Keys <= Keys(fields)) ==> r.error == ExtraKeys(input.Keys - Keys(fields))
  {
    if !(input.Keys <= Keys(fields)) then Err(ExtraKeys(input.Keys - Keys(fields)))
    else match FirstProblem(fields, input)
      case Some(e) => Err(e)
      case None =>
        var d := Fill(fields, input);
        assert forall k :: k in input ==> d[k] == input[k] by {
          forall k | k in input ensures d[k] == input[k] {
            assert k in Keys(fields);
            var i :| 0 <= i < |fields| && fields[i].key == k;
          }
        }
        Ok(d)
  }

  /** A validated dictionary is itself accepted by the schema. */
  lemma ValidatedConforms(fields: Schema, input: Data)
    requires Validate(fields, input).Ok?
    ensures Conforms(fields, Validate(fields, input).value)
  {
    var d := Validate(fields, input).value;
    forall i | 0 <= i < |fields| ensures FieldHolds(fields[i], d) {
      var f := fields[i];
      assert FieldHolds(f, input);
      if f.key in d && f.key !in input {
        assert f.default.Some? by {
          var j :| 0 <= j < |fields| && (fields[j].key in input || fields[j].default.Some?) && fields[j].key == f.key;
          assert j == i;
        }
      }
    }
  }

  /** Filling a validated dictionary adds no key: every default is already in it. */
  lemma ValidatedIsFilled(fields: Schema, input: Data)
    requires Validate(fields, input).Ok?
    ensures FilledKeys(fields, Validate(fields, input).value) == Validate(fields, input).value.Keys
  {
    var d := Validate(fields, input).value;
    forall k | k in FilledKeys(fields, d) ensures k in d {
      var j :| 0 <= j < |fields| && (fields[j].key in d || fields[j].default.Some?) && fields[j].key == k;
    }
  }

  /** Validating an already validated dictionary changes nothing. */
  lemma ValidateIdempotent(fields: Schema, input: Data)
    requires Validate(fields, input).Ok?
    ensures Validate(fields, Validate(fields, input).value) == Validate(fields, input)
  {
    var d := Validate(fields, input).value;
    ValidatedConforms(fields, input);
    ValidatedIsFilled(fields, input);
    assert Validate(fields, d).value == d;
  }

  /** Every validated dictionary satisfies the checks of the fields it has. */
  lemma ValidatedValuesPassChecks(fields: Schema, input: Data, i: int)
    requires Validate(fields, input).Ok?
    requires 0 <= i < |fields| && fields[i].key in Validate(fields, input).value
    ensures Accepts(fields[i].check, Validate(fields, input).value[fields[i].key])
  {
    assert FieldHolds(fields[i], input);
  }
}

=== FILE: sensor.dfy ===
/** The sensor platform: `safe_round`, the consumption aggregates, the
    price-override rule, the contract-type dispatch that decides which price
    sensor an entry gets, the entity list, the unique-ID and name scheme,
    and the data coordinator's update and error policy. */
module Sensor {
  import opened Common
  import opened Text

  // ---------------------------------------------------------------------
  // safe_round

  /** Library numerics the model does not interpret: Python's
      `round(x, 2)` and `float(s)` on a string (None when it raises). */
  datatype Numerics = Numerics(round2: real -> real, parseFloat: string -> Option<real>)

  /** `float(v)`, or None where Python raises TypeError or ValueError. */
  function ToFloat(num: Numerics, v: Value): Option<real> {
    match v
    case VNone => None
    case VBool(b) => Some(if b then 1.0 else 0.0)
    case VNum(x) => Some(x)
    case VStr(s) => num.parseFloat(s)
    case VDict(_) => None
  }

  /** `safe_round(v)`: total; 0.0 for None and for anything `float()` rejects. */
  function SafeRound(num: Numerics, v: Value): (r: real)
    ensures v == VNone ==> r == 0.0
    ensures ToFloat(num, v) == None ==> r == 0.0
    ensures ToFloat(num, v).Some? ==> r == num.round2(ToFloat(num, v).value)
  {
    match ToFloat(num, v)
    case None => 0.0
    case Some(x) => num.round2(x)
  }

  // ---------------------------------------------------------------------
  // Consumption aggregates

  datatype Measurement = Measurement(value: real, status: string)
  datatype ElectricityInterval = ElectricityInterval(measurements: seq<Measurement>)
  /** A daily-measurements response: its electricity intervals. */
  datatype MeasurementResponse = MeasurementResponse(electricity: seq<ElectricityInterval>)

  predicate IsValid(m: Measurement) {
    m.status == "valid"
  }

  /** Python's `sum` over a list of numbers. */
  function Sum(xs: seq<real>): real {
    if |xs| == 0 then 0.0 else Sum(xs[..|xs| - 1]) + xs[|xs| - 1]
  }

  /** The values of the valid measurements, in order
      (`[m.value for m in ms if m.status == "valid"]`). */
  function ValidValues(ms: seq<Measurement>): (vs: seq<real>)
    ensures |vs| <= |ms|
  {
    if |ms| == 0 then []
    else
      var last := ms[|ms| - 1];
      ValidValues(ms[..|ms| - 1]) + (if IsValid(last) then [last.value] else [])
  }

  /** `sum(m.value if m.status == "valid" else 0.0 for m in ms)` */
  function MaskedSum(ms: seq<Measurement>): real {
    if |ms| == 0 then 0.0
    else
      var last := ms[|ms| - 1];
      MaskedSum(ms[..|ms| - 1]) + (if IsValid(last) then last.value else 0.0)
  }

  /** Counting invalid measurements as zero is the same as summing the
      valid ones only. */
  lemma {:induction false} MaskedSumIsValidSum(ms: seq<Measurement>)
    ensures MaskedSum(ms) == Sum(ValidValues(ms))
  {
    if |ms| > 0 {
      MaskedSumIsValidSum(ms[..|ms| - 1]);
      var prefix := ValidValues(ms[..|ms| - 1]);
      var last := ms[|ms| - 1];
      if IsValid(last) {
        assert (prefix + [last.value])[..|prefix|] == prefix;
      } else {
        assert prefix + [] == prefix;
      }
    }
  }

  /** One pass over the measurements of an interval, accumulating the sum
      and the count of the valid ones. */
  method SumValidMeasurements(ms: seq<Measurement>) returns (total: real, count: nat)
    ensures total == Sum(ValidValues(ms))
    ensures count == |ValidValues(ms)|
  {
    total, count := 0.0, 0;
    var i := 0;
    while i < |ms|
      invariant 0 <= i <= |ms|
      invariant total == Sum(ValidValues(ms[..i]))
      invariant count == |ValidValues(ms[..i])|
    {
      assert ms[..i + 1][..i] == ms[..i];
      var vs := ValidValues(ms[..i]);
      if IsValid(ms[i]) {
        assert (vs + [ms[i].value])[..|vs|] == vs;
        total := total + ms[i].value;
        count := count + 1;
      } else {
        assert vs + [] == vs;
      }
      i := i + 1;
    }
    assert ms[..|ms|] == ms;
  }

  /** `_get_total_consumption_between_dates`: 0.0 without electricity
      intervals, otherwise the rounded sum of the valid measurements of the
      first interval. */
  function TotalConsumption(num: Numerics, resp: MeasurementResponse): (r: real)
    ensures |resp.electricity| == 0 ==> r == 0.0
    ensures |resp.electricity| > 0 ==>
      r == num.round2(Sum(ValidValues(resp.electricity[0].measurements)))
  {
    if |resp.electricity| == 0 then 0.0
    else
      var ms := resp.electricity[0].measurements;
      MaskedSumIsValidSum(ms);
      SafeRound(num, VNum(MaskedSum(ms)))
  }

  /** Mean of a non-empty list of numbers. */
  function Mean(xs: seq<real>): real
    requires |xs| > 0
  {
    Sum(xs) / |xs| as real
  }

  /** A sum of numbers within [lo, hi] lies within [n*lo, n*hi]. */
  lemma {:induction false} SumBounds(xs: seq<real>, lo: real, hi: real)
    requires forall i :: 0 <= i < |xs| ==> lo <= xs[i] <= hi
    ensures |xs| as real * lo <= Sum(xs) <= |xs| as real * hi
  {
    if |xs| > 0 {
      SumBounds(xs[..|xs| - 1], lo, hi);
    }
  }

  /** The average of the valid measurements lies between their minimum and
      their maximum. */
  lemma MeanWithinBounds(xs: seq<real>, lo: real, hi: real)
    requires |xs| > 0
    requires forall i :: 0 <= i < |xs| ==> lo <= xs[i] <= hi
    ensures lo <= Mean(xs) <= hi
  {
    SumBounds(xs, lo, hi);
    var n := |xs| as real;
    assert n * lo <= Sum(xs) <= n * hi;
    assert Sum(xs) / n >= lo by {
      assert (Sum(xs) / n) * n == Sum(xs);
    }
    assert Sum(xs) / n <= hi by {
      assert (Sum(xs) / n) * n == Sum(xs);
    }
  }

  /** `_get_average_daily_consumption_for_current_month`: 0 without
      intervals, the rounded 0 without valid measurements (no division by
      zero), otherwise the rounded mean of the valid measurements of the
      first interval. */
  function DailyAverage(num: Numerics, resp: MeasurementResponse): (r: real)
    ensures |resp.electricity| == 0 ==> r == 0.0
    ensures |resp.electricity| > 0 && |ValidValues(resp.electricity[0].measurements)| == 0 ==>
      r == num.round2(0.0)
    ensures |resp.electricity| > 0 && |ValidValues(resp.electricity[0].measurements)| > 0 ==>
      r == num.round2(Mean(ValidValues(resp.electricity[0].measurements)))
  {
    if |resp.electricity| == 0 then 0.0
    else
      var valid := ValidValues(resp.electricity[0].measurements);
      var average := if |valid| > 0 then Sum(valid) / |valid| as real else 0.0;
      SafeRound(num, VNum(average))
  }

  /** The daily average, when there are valid measurements, is the rounding
      of a value between the smallest and largest valid measurement. */
  lemma DailyAverageWithinValidRange(num: Numerics, resp: MeasurementResponse, lo: real, hi: real)
    requires |resp.electricity| > 0
    requires |ValidValues(resp.electricity[0].measurements)| > 0
    requires forall v :: v in ValidValues(resp.electricity[0].measurements) ==> lo <= v <= hi
    ensures exists m :: lo <= m <= hi && DailyAverage(num, resp) == num.round2(m)
  {
    var valid := ValidValues(resp.electricity[0].measurements);
    forall i | 0 <= i < |valid| ensures lo <= valid[i] <= hi {
      assert valid[i] in valid;
    }
    MeanWithinBounds(valid, lo, hi);
    assert lo <= Mean(valid) <= hi && DailyAverage(num, resp) == num.round2(Mean(valid));
  }

  // ---------------------------------------------------------------------
  // Price overrides

  /** `_get_base_price` / `_get_unit_price`: a configured override that is
      not None wins; otherwise the fetched value under `key`, 0 when the key
      is missing; rounded with `safe_round` either way. */
  function PriceWithOverride(num: Numerics, override: Value, data: Data, key: string): (r: real)
    ensures override != VNone ==> r == SafeRound(num, override)
    ensures override == VNone && key !in data ==> r == num.round2(0.0)
    ensures override == VNone && key in data ==> r == SafeRound(num, data[key])
  {
    if override != VNone then SafeRound(num, override)
    else SafeRound(num, Get(data, key, VNum(0.0)))
  }

  const KeyContractBasePrice: string := "contract_base_price"
  const KeyUnitPrice: string := "unit_price"

  function BasePrice(num: Numerics, defaultBasePrice: Value, data: Data): real {
    PriceWithOverride(num, defaultBasePrice, data, KeyContractBasePrice)
  }

  function UnitPrice(num: Numerics, defaultUnitPrice: Value, data: Data): real {
    PriceWithOverride(num, defaultUnitPrice, data, KeyUnitPrice)
  }

  /** While an override is set, the fetched data has no influence on the
      price. */
  lemma OverrideIgnoresFetchedData(num: Numerics, override: Value, d1: Data, d2: Data)
    requires override != VNone
    ensures BasePrice(num, override, d1) == BasePrice(num, override, d2)
    ensures UnitPrice(num, override, d1) == UnitPrice(num, override, d2)
  {
  }

  // ---------------------------------------------------------------------
  // Contract-type dispatch

  datatype PriceSensor =
    | FixedPriceElectricity
    | MarketPriceElectricity
    | ExchangeElectricity
    | SmartGuarantee

  /** The sensor-type string each price sensor passes to the base sensor. */
  function PriceSensorType(p: PriceSensor): string {
    match p
    case FixedPriceElectricity => "fixed_price_electricity"
    case MarketPriceElectricity => "market_price_electricity"
    case ExchangeElectricity => "exchange_electricity"
    case SmartGuarantee => "smart_guarantee"
  }

  /** The priority rule of the dispatch, given whether the fixed-price flag
      is set and which of the five markers the contract type contains. */
  function PriorityRule(fixed: bool, perus: bool, kaytto: bool, mark: bool, pors: bool, valtti: bool)
    : (r: Option<PriceSensor>)
    ensures r == Some(FixedPriceElectricity) <==> fixed || perus || kaytto
    ensures r == Some(MarketPriceElectricity) <==> !(fixed || perus || kaytto) && mark
    ensures r == Some(ExchangeElectricity) <==> !(fixed || perus || kaytto || mark) && pors
    ensures r == Some(SmartGuarantee) <==> !(fixed || perus || kaytto || mark || pors) && valtti
    ensures r == None <==> !(fixed || perus || kaytto || mark || pors || valtti)
  {
    if fixed || perus || kaytto then Some(FixedPriceElectricity)
    else if mark then Some(MarketPriceElectricity)
    else if pors then Some(ExchangeElectricity)
    else if valtti then Some(SmartGuarantee)
    else None
  }

  /** Which price sensor a contract type gets (at most one). */
  function SelectPriceSensor(fixed: bool, contractType: string): Option<PriceSensor> {
    PriorityRule(fixed,
      Contains(contractType, "PERUS"), Contains(contractType, "KAYTTO"),
      Contains(contractType, "MARK"), Contains(contractType, "PORS"),
      Contains(contractType, "VALTTI"))
  }

  /** Python's `sub in v` raises TypeError unless `v` is a string or a dict. */
  datatype TypeError = NotIterable

  predicate Iterable(v: Value) {
    v.VStr? || v.VDict?
  }

  /** `sub in v` for a string (substring) or a dict (key). */
  predicate In(sub: string, v: Value)
    requires Iterable(v)
  {
    if v.VStr? then Contains(v.s, sub) else sub in v.d
  }

  /** The dispatch exactly as `async_setup_entry` writes it: the contract
      type is read with `.get("contract_type")`, so it can be None, and
      `"PERUS" in None` raises unless the fixed-price flag short-circuits. */
  function DispatchAsWritten(fixedFlag: Value, contractType: Value): (r: Result<Option<PriceSensor>, TypeError>)
    ensures Truthy(fixedFlag) ==> r == Ok(Some(FixedPriceElectricity))
    ensures r.Err? <==> !Truthy(fixedFlag) && !Iterable(contractType)
    ensures contractType.VStr? ==> r == Ok(SelectPriceSensor(Truthy(fixedFlag), contractType.s))
  {
    if Truthy(fixedFlag) then Ok(Some(FixedPriceElectricity))
    else if !Iterable(contractType) then Err(NotIterable)
    else Ok(PriorityRule(false,
      In("PERUS", contractType), In("KAYTTO", contractType),
      In("MARK", contractType), In("PORS", contractType),
      In("VALTTI", contractType)))
  }

  /** The contract type as text; a missing or non-string contract type
      reads as the empty string, which matches no marker. */
  function ContractText(contractType: Value): string {
    if contractType.VStr? then contractType.s else ""
  }

  /** The dispatch with a missing contract type tolerated: no price sensor
      unless the fixed-price flag is set. */
  function Dispatch(fixedFlag: Value, contractType: Value): (r: Option<PriceSensor>)
    ensures Truthy(fixedFlag) ==> r == Some(FixedPriceElectricity)
    ensures !Truthy(fixedFlag) && !contractType.VStr? ==> r == None
    ensures DispatchAsWritten(fixedFlag, contractType).Ok? && !contractType.VDict? ==>
      r == DispatchAsWritten(fixedFlag, contractType).value
  {
    SelectPriceSensor(Truthy(fixedFlag), ContractText(contractType))
  }

  // ---------------------------------------------------------------------
  // The entity list

  datatype SensorKind = Price(kind: PriceSensor) | TransferCosts | MonthlyConsumption

  /** The sensors `async_setup_entry` adds for an entry, given the entry's
      data and the coordinator's first data. */
  function SetupEntities(entryData: Data, coordinatorData: Data): (r: seq<SensorKind>)
    ensures |r| >= 1 && r[|r| - 1] == MonthlyConsumption
    ensures TransferCosts in r <==> Truthy(Get(entryData, KeyIncludeTransferCosts, VNone))
    ensures r[0].Price? <==>
      Dispatch(Get(entryData, KeyFixedPrice, VBool(false)), Get(coordinatorData, KeyContractType, VNone)).Some?
    ensures r[0].Price? ==>
      Some(r[0].kind) == Dispatch(Get(entryData, KeyFixedPrice, VBool(false)), Get(coordinatorData, KeyContractType, VNone))
    ensures forall i :: 0 < i < |r| ==> !r[i].Price?
    ensures |r| == (if r[0].Price? then 1 else 0)
                 + (if Truthy(Get(entryData, KeyIncludeTransferCosts, VNone)) then 1 else 0) + 1
  {
    var price := Dispatch(Get(entryData, KeyFixedPrice, VBool(false)), Get(coordinatorData, KeyContractType, VNone));
    var priced := if price.Some? then [Price(price.value)] else [];
    var transfer := if Truthy(Get(entryData, KeyIncludeTransferCosts, VNone)) then [TransferCosts] else [];
    priced + transfer + [MonthlyConsumption]
  }

  /** Why `async_setup_entry` as written raises before adding entities:
      `data[...]` on a missing key (KeyError), `vat / 100` on a value that
      is not a number (TypeError), or the dispatch's `in` on a contract
      type that is neither a string nor a dict (TypeError). */
  datatype SetupFailure = MissingEntryKey(key: string) | VatNotNumber | ContractTypeNotIterable

  /** `async_setup_entry` as written, from reading the entry's data to the
      entity list; the exchange-price fetch and the first refresh between
      them are the coordinator's data given. */
  function SetupEntitiesAsWritten(entryData: Data, coordinatorData: Data): (r: Result<seq<SensorKind>, SetupFailure>)
    ensures r == Err(MissingEntryKey(KeyUsername)) <==> KeyUsername !in entryData
    ensures r == Err(MissingEntryKey(KeyPassword)) <==> KeyUsername in entryData && KeyPassword !in entryData
    ensures r == Err(MissingEntryKey(KeyVat)) <==>
      KeyUsername in entryData && KeyPassword in entryData && KeyVat !in entryData
    ensures r == Err(VatNotNumber) <==>
      && KeyUsername in entryData && KeyPassword in entryData && KeyVat in entryData
      && !Divisible(entryData[KeyVat])
    ensures r == Err(ContractTypeNotIterable) <==>
      && KeyUsername in entryData && KeyPassword in entryData && KeyVat in entryData
      && Divisible(entryData[KeyVat])
      && DispatchAsWritten(Get(entryData, KeyFixedPrice, VBool(false)), Get(coordinatorData, KeyContractType, VNone)).Err?
    ensures r.Ok? && !Get(coordinatorData, KeyContractType, VNone).VDict? ==>
      r.value == SetupEntities(entryData, coordinatorData)
  {
    if KeyUsername !in entryData then Err(MissingEntryKey(KeyUsername))
    else if KeyPassword !in entryData then Err(MissingEntryKey(KeyPassword))
    else if KeyVat !in entryData then Err(MissingEntryKey(KeyVat))
    else if !Divisible(entryData[KeyVat]) then Err(VatNotNumber)
    else match DispatchAsWritten(Get(entryData, KeyFixedPrice, VBool(false)), Get(coordinatorData, KeyContractType, VNone))
      case Err(_) => Err(ContractTypeNotIterable)
      case Ok(price) =>
        var priced := if price.Some? then [Price(price.value)] else [];
        var transfer := if Truthy(Get(entryData, KeyIncludeTransferCosts, VNone)) then [TransferCosts] else [];
        Ok(priced + transfer + [MonthlyConsumption])
  }

  // ---------------------------------------------------------------------
  // Unique IDs and names

  /** The entry is the first of the integration's entries. */
  predicate IsFirstEntry(entries: seq<ConfigEntry>, e: ConfigEntry) {
    |entries| >= 1 && entries[0] == e
  }

  /** Position of the first occurrence of `e` in `entries`. */
  function FirstIndex(entries: seq<ConfigEntry>, e: ConfigEntry): (r: Option<nat>)
    ensures r.None? <==> e !in entries
    ensures r.Some? ==> r.value < |entries| && entries[r.value] == e
    ensures r.Some? ==> forall j :: 0 <= j < r.value ==> entries[j] != e
  {
    if |entries| == 0 then None
    else if entries[0] == e then Some(0)
    else
      match FirstIndex(entries[1..], e)
      case None => None
      case Some(i) => Some(i + 1)
  }

  /** The sequence number an additional entry shows (`entry_index + 1`,
      where the index defaults to 1 when the entry is not found). */
  function EntryNumber(entries: seq<ConfigEntry>, e: ConfigEntry): (n: nat)
    ensures e in entries ==> 1 <= n <= |entries| && entries[n - 1] == e
    ensures e !in entries ==> n == 2
    ensures !IsFirstEntry(entries, e) ==> n >= 2
  {
    FirstIndex(entries, e).GetOr(1) + 1
  }

  /** The unique ID of a sensor of type `sensorType` for entry `e`. */
  function UniqueId(entries: seq<ConfigEntry>, e: ConfigEntry, sensorType: string): (uid: string)
    ensures |uid| >= |e.entryId| + 1 + |sensorType|
    ensures uid[..|e.entryId| + 1 + |sensorType|] == e.entryId + "_" + sensorType
    ensures IsFirstEntry(entries, e) <==> |uid| == |e.entryId| + 1 + |sensorType|
    ensures !IsFirstEntry(entries, e) ==>
      uid[|e.entryId| + 1 + |sensorType|..] == "_" + NatToString(EntryNumber(entries, e))
  {
    if IsFirstEntry(entries, e) then e.entryId + "_" + sensorType
    else e.entryId + "_" + sensorType + "_" + NatToString(EntryNumber(entries, e))
  }

  /** The delivery site of an entry, when it is set and non-empty: a
      string site is used exactly when it is truthy. */
  function DeliverySite(e: ConfigEntry): (r: Option<string>)
    ensures r.Some? ==> Get(e.data, KeyDeliverySiteId, VNone) == VStr(r.value)
    ensures Get(e.data, KeyDeliverySiteId, VNone).VStr? ==> (r.Some? <==> Truthy(Get(e.data, KeyDeliverySiteId, VNone)))
  {
    match Get(e.data, KeyDeliverySiteId, VNone)
    case VStr(s) => if s != "" then Some(s) else None
    case _ => None
  }

  /** What distinguishes an additional entry's names: its site, otherwise
      its sequence number. */
  function NameSuffix(entries: seq<ConfigEntry>, e: ConfigEntry): (r: string)
    ensures DeliverySite(e).Some? ==> r == "Site " + DeliverySite(e).value
    ensures DeliverySite(e).None? ==> |r| > 0 && AllDigits(r) && ParseNat(r) == EntryNumber(entries, e)
  {
    match DeliverySite(e)
    case Some(site) => "Site " + site
    case None =>
      ParseNatToString(EntryNumber(entries, e));
      NatToString(EntryNumber(entries, e))
  }

  /** A sensor's unique ID and display name. */
  datatype Identity = Identity(uniqueId: string, name: string)

  /** "Helen <title> (<suffix>)", the name of a sensor of an additional entry. */
  function LaterEntryName(title: string, entries: seq<ConfigEntry>, e: ConfigEntry): (r: string)
    ensures |r| == |title| + |NameSuffix(entries, e)| + 9
    ensures r[..|title| + 8] == "Helen " + title + " ("
    ensures r[|title| + 8..|r| - 1] == NameSuffix(entries, e)
    ensures r[|r| - 1] == ')'
  {
    "Helen " + title + " (" + NameSuffix(entries, e) + ")"
  }

  /** A sensor type as a display title: underscores become spaces, then `title()`. */
  function TypeTitle(sensorType: string): string {
    TitleCase(UnderscoresToSpaces(sensorType))
  }

  /** The base sensor's name: an explicit name wins; the first entry gets
      the legacy name (whether or not legacy names are in use); any other
      entry gets its type title and suffix. The legacy name table is a
      parameter. */
  function BaseName(entries: seq<ConfigEntry>, e: ConfigEntry, sensorType: string,
                    explicitName: Option<string>, useLegacyNames: bool,
                    legacyName: string -> string): (r: string)
    ensures explicitName.Some? && explicitName.value != "" ==> r == explicitName.value
    ensures (explicitName.None? || explicitName.value == "") && IsFirstEntry(entries, e) ==> r == legacyName(sensorType)
    ensures (explicitName.None? || explicitName.value == "") && !IsFirstEntry(entries, e) ==>
      r == LaterEntryName(TypeTitle(sensorType), entries, e)
  {
    if explicitName.Some? && explicitName.value != "" then explicitName.value
    else if IsFirstEntry(entries, e) && useLegacyNames then legacyName(sensorType)
    else if IsFirstEntry(entries, e) then legacyName(sensorType)
    else LaterEntryName(TypeTitle(sensorType), entries, e)
  }

  /** The base sensor's unique ID and name. */
  function BaseIdentity(entries: seq<ConfigEntry>, e: ConfigEntry, sensorType: string,
                        explicitName: Option<string>, useLegacyNames: bool,
                        legacyName: string -> string): Identity
  {
    Identity(UniqueId(entries, e, sensorType),
             BaseName(entries, e, sensorType, explicitName, useLegacyNames, legacyName))
  }

  /** The sensor-type string of every sensor kind. */
  function SensorType(k: SensorKind): string {
    match k
    case Price(p) => PriceSensorType(p)
    case TransferCosts => "transfer_costs"
    case MonthlyConsumption => "monthly_consumption"
  }

  /** The identity each sensor class computes. Price sensors go through the
      base sensor with no explicit name; the transfer-cost and monthly
      consumption sensors spell their IDs and names out themselves. */
  function SensorIdentity(entries: seq<ConfigEntry>, e: ConfigEntry, k: SensorKind,
                          useLegacyNames: bool, legacyName: string -> string): Identity
  {
    match k
    case Price(p) => BaseIdentity(entries, e, PriceSensorType(p), None, useLegacyNames, legacyName)
    case TransferCosts =>
      var uid := if IsFirstEntry(entries, e) then e.entryId + "_transfer_costs"
                 else e.entryId + "_transfer_costs_" + NatToString(EntryNumber(entries, e));
      var name := if IsFirstEntry(entries, e) then legacyName("transfer_costs")
                  else LaterEntryName("Transfer Costs", entries, e);
      Identity(uid, name)
    case MonthlyConsumption =>
      var uid := if IsFirstEntry(entries, e) then e.entryId + "_monthly_consumption"
                 else e.entryId + "_monthly_consumption_" + NatToString(EntryNumber(entries, e));
      var name := if IsFirstEntry(entries, e) then legacyName("monthly_consumption")
                  else LaterEntryName("Monthly Consumption", entries, e);
      Identity(uid, name)
  }

  /** All six sensor classes follow the base scheme: the literal IDs and
      names of the transfer-cost and monthly-consumption sensors are what
      the base sensor would compute from their type strings. */
  lemma SensorIdentityFollowsBaseScheme(entries: seq<ConfigEntry>, e: ConfigEntry, k: SensorKind,
                                        useLegacyNames: bool, legacyName: string -> string)
    ensures SensorIdentity(entries, e, k, useLegacyNames, legacyName)
         == BaseIdentity(entries, e, SensorType(k), None, useLegacyNames, legacyName)
  {
    match k
    case Price(_) =>
    case TransferCosts =>
      TransferCostsUniqueId(entries, e, useLegacyNames, legacyName);
      TransferCostsName(entries, e, useLegacyNames, legacyName);
    case MonthlyConsumption =>
      MonthlyConsumptionUniqueId(entries, e, useLegacyNames, legacyName);
      MonthlyConsumptionName(entries, e, useLegacyNames, legacyName);
  }

  lemma TransferCostsUniqueId(entries: seq<ConfigEntry>, e: ConfigEntry, useLegacyNames: bool, legacyName: string -> string)
    ensures SensorIdentity(entries, e, TransferCosts, useLegacyNames, legacyName).uniqueId
         == UniqueId(entries, e, "transfer_costs")
  {
    var n := NatToString(EntryNumber(entries, e));
    assert e.entryId + "_transfer_costs_" + n == e.entryId + "_" + "transfer_costs" + "_" + n;
    assert e.entryId + "_transfer_costs" == e.entryId + "_" + "transfer_costs";
  }

  lemma TransferCostsName(entries: seq<ConfigEntry>, e: ConfigEntry, useLegacyNames: bool, legacyName: string -> string)
    ensures SensorIdentity(entries, e, TransferCosts, useLegacyNames, legacyName).name
         == BaseName(entries, e, "transfer_costs", None, useLegacyNames, legacyName)
  {
    if !IsFirstEntry(entries, e) {
      TitleTransferCosts();
      assert BaseName(entries, e, "transfer_costs", None, useLegacyNames, legacyName)
          == LaterEntryName(TypeTitle("transfer_costs"), entries, e);
    }
  }

  lemma MonthlyConsumptionUniqueId(entries: seq<ConfigEntry>, e: ConfigEntry, useLegacyNames: bool, legacyName: string -> string)
    ensures SensorIdentity(entries, e, MonthlyConsumption, useLegacyNames, legacyName).uniqueId
         == UniqueId(entries, e, "monthly_consumption")
  {
    var n := NatToString(EntryNumber(entries, e));
    assert e.entryId + "_monthly_consumption_" + n == e.entryId + "_" + "monthly_consumption" + "_" + n;
    assert e.entryId + "_monthly_consumption" == e.entryId + "_" + "monthly_consumption";
  }

  lemma MonthlyConsumptionName(entries: seq<ConfigEntry>, e: ConfigEntry, useLegacyNames: bool, legacyName: string -> string)
    ensures SensorIdentity(entries, e, MonthlyConsumption, useLegacyNames, legacyName).name
         == BaseName(entries, e, "monthly_consumption", None, useLegacyNames, legacyName)
  {
    if !IsFirstEntry(entries, e) {
      TitleMonthlyConsumption();
      assert BaseName(entries, e, "monthly_consumption", None, useLegacyNames, legacyName)
          == LaterEntryName(TypeTitle("monthly_consumption"), entries, e);
    }
  }

  /** `replace('_', ' ')` then `title()` of a type string, computed
      character by character; stated over variables so that the verifier
      does not unfold the literals. */
  lemma TitleOfType(raw: string, spaced: string, titled: string)
    requires |raw| == |spaced| == |titled|
    requires forall i :: 0 <= i < |raw| ==> spaced[i] == (if raw[i] == '_' then ' ' else raw[i])
    requires forall i :: 0 <= i < |raw| ==> titled[i] == TitleCharAt(spaced, i)
    ensures TypeTitle(raw) == titled
  {
    assert UnderscoresToSpaces(raw) == spaced;
    TitleCaseChars(spaced);
  }

  lemma TitleTransferCosts()
    ensures TypeTitle("transfer_costs") == "Transfer Costs"
  {
    TitleOfType("transfer_costs", "transfer costs", "Transfer Costs");
  }

  lemma TitleMonthlyConsumption()
    ensures TypeTitle("monthly_consumption") == "Monthly Consumption"
  {
    TitleOfType("monthly_consumption", "monthly consumption", "Monthly Consumption");
  }

  /** Different sensor kinds have different type strings. */
  lemma SensorTypeInjective(k1: SensorKind, k2: SensorKind)
    requires k1 != k2
    ensures SensorType(k1) != SensorType(k2)
  {
    // the six type strings have six different lengths
    assert |SensorType(k1)| != |SensorType(k2)|;
  }

  /** The sensors of one entry never share a unique ID. */
  lemma UniqueIdsDistinctPerEntry(entries: seq<ConfigEntry>, e: ConfigEntry, k1: SensorKind, k2: SensorKind,
                                  useLegacyNames: bool, legacyName: string -> string)
    requires k1 != k2
    ensures SensorIdentity(entries, e, k1, useLegacyNames, legacyName).uniqueId
         != SensorIdentity(entries, e, k2, useLegacyNames, legacyName).uniqueId
  {
    SensorIdentityFollowsBaseScheme(entries, e, k1, useLegacyNames, legacyName);
    SensorIdentityFollowsBaseScheme(entries, e, k2, useLegacyNames, legacyName);
    SensorTypeInjective(k1, k2);
    DistinctTypesDistinctIds(entries, e, SensorType(k1), SensorType(k2));
  }

  lemma DistinctTypesDistinctIds(entries: seq<ConfigEntry>, e: ConfigEntry, t1: string, t2: string)
    requires t1 != t2
    ensures UniqueId(entries, e, t1) != UniqueId(entries, e, t2)
  {
    var p := e.entryId + "_";
    var q := if IsFirstEntry(entries, e) then "" else "_" + NatToString(EntryNumber(entries, e));
    assert UniqueId(entries, e, t1) == p + t1 + q;
    assert UniqueId(entries, e, t2) == p + t2 + q;
    if p + t1 + q == p + t2 + q {
      InfixCancel(p, t1, t2, q);
    }
  }

  /** Equal strings with the same prefix and suffix have the same middle. */
  lemma InfixCancel(p: string, a: string, b: string, q: string)
    requires p + a + q == p + b + q
    ensures a == b
  {
    var s := p + a + q;
    assert |a| == |b|;
    assert a == s[|p|..|p| + |a|];
    assert b == (p + b + q)[|p|..|p| + |b|];
  }

  /** An additional entry's number can be read back from its unique IDs. */
  lemma EntryNumberReadsBack(entries: seq<ConfigEntry>, e: ConfigEntry, sensorType: string)
    requires !IsFirstEntry(entries, e)
    ensures var uid := UniqueId(entries, e, sensorType);
      var digits := uid[|e.entryId| + |sensorType| + 2..];
      AllDigits(digits) && ParseNat(digits) == EntryNumber(entries, e) >= 2
  {
    var uid := UniqueId(entries, e, sensorType);
    var n := NatToString(EntryNumber(entries, e));
    assert uid[|e.entryId| + |sensorType| + 2..] == n;
    ParseNatToString(EntryNumber(entries, e));
  }

  /** Two different additional entries get different suffixes unless both
      name the same delivery site. */
  lemma NameSuffixesDistinct(entries: seq<ConfigEntry>, e1: ConfigEntry, e2: ConfigEntry)
    requires e1 in entries && e2 in entries && e1 != e2
    requires DeliverySite(e1) != DeliverySite(e2) || DeliverySite(e1).None?
    ensures NameSuffix(entries, e1) != NameSuffix(entries, e2)
  {
    var s1, s2 := NameSuffix(entries, e1), NameSuffix(entries, e2);
    match (DeliverySite(e1), DeliverySite(e2))
    case (None, None) =>
      assert EntryNumber(entries, e1) != EntryNumber(entries, e2);
    case (Some(a), Some(b)) =>
      assert s1[5..] == a && s2[5..] == b;
    case (Some(_), None) =>
      assert s1[0] == 'S';
    case (None, Some(_)) =>
      assert s2[0] == 'S';
  }

  /** Sensors of the same type in two different additional entries get
      different names, unless both entries name the same delivery site. */
  lemma LaterEntryNamesDistinct(entries: seq<ConfigEntry>, e1: ConfigEntry, e2: ConfigEntry, sensorType: string,
                                useLegacyNames: bool, legacyName: string -> string)
    requires e1 in entries && e2 in entries && e1 != e2
    requires !IsFirstEntry(entries, e1) && !IsFirstEntry(entries, e2)
    requires DeliverySite(e1) != DeliverySite(e2) || DeliverySite(e1).None?
    ensures BaseName(entries, e1, sensorType, None, useLegacyNames, legacyName)
         != BaseName(entries, e2, sensorType, None, useLegacyNames, legacyName)
  {
    NameSuffixesDistinct(entries, e1, e2);
  }

  // ---------------------------------------------------------------------
  // The data coordinator

  /** Why a refresh failed: the client's InvalidApiResponseException, or
      any other exception. */
  datatype UpdateFailure = InvalidApiResponse(message: string) | UnexpectedError(message: string)

  datatype UpdateOutcome = Refreshed(data: Data) | ReauthRequired

  /** An API error whose message mentions authentication, in any case. */
  predicate IsAuthFailure(f: UpdateFailure) {
    f.InvalidApiResponse? && Contains(ToLower(f.message), "authentication")
  }

  /** `_async_update_data` given the previous data and the result of
      fetching: fresh data on success, re-authentication on an
      authentication failure, otherwise the previous data kept (or `{}`). */
  function Update(previous: Option<Data>, fetched: Result<Data, UpdateFailure>): (r: UpdateOutcome)
    ensures fetched.Ok? ==> r == Refreshed(fetched.value)
    ensures r == ReauthRequired <==> fetched.Err? && IsAuthFailure(fetched.error)
    ensures fetched.Err? && !IsAuthFailure(fetched.error) ==>
      r == Refreshed(if previous.Some? then previous.value else map[])
  {
    match fetched
    case Ok(d) => Refreshed(d)
    case Err(f) =>
      if f.InvalidApiResponse? && Contains(ToLower(f.message), "authentication") then ReauthRequired
      else Refreshed(previous.GetOr(map[]))
  }

  /** The authentication check ignores the case of the message. */
  lemma AuthFailureIgnoresCase(m1: string, m2: string)
    requires ToLower(m1) == ToLower(m2)
    ensures IsAuthFailure(InvalidApiResponse(m1)) == IsAuthFailure(InvalidApiResponse(m2))
  {
  }

  predicate NoAuthFailure(fetches: seq<Result<Data, UpdateFailure>>) {
    forall i :: 0 <= i < |fetches| ==> !(fetches[i].Err? && IsAuthFailure(fetches[i].error))
  }

  /** The coordinator's data after a run of refreshes none of which needs
      re-authentication. */
  function RunUpdates(initial: Option<Data>, fetches: seq<Result<Data, UpdateFailure>>): Option<Data>
    requires NoAuthFailure(fetches)
  {
    if |fetches| == 0 then initial
    else
      var before := RunUpdates(initial, fetches[..|fetches| - 1]);
      Some(Update(before, fetches[|fetches| - 1]).data)
  }

  /** The data of the latest successful fetch. */
  function LastSuccess(fetches: seq<Result<Data, UpdateFailure>>): Option<Data> {
    if |fetches| == 0 then None
    else if fetches[|fetches| - 1].Ok? then Some(fetches[|fetches| - 1].value)
    else LastSuccess(fetches[..|fetches| - 1])
  }

  /** Keep-last-good: after any run of refreshes without authentication
      failures the data is that of the latest successful fetch; with no
      success at all it is the initial data, or `{}` when there was none. */
  lemma {:induction false} RunUpdatesKeepsLastGood(initial: Option<Data>, fetches: seq<Result<Data, UpdateFailure>>)
    requires NoAuthFailure(fetches)
    ensures LastSuccess(fetches).Some? ==> RunUpdates(initial, fetches) == LastSuccess(fetches)
    ensures LastSuccess(fetches).None? && |fetches| > 0 ==>
      RunUpdates(initial, fetches) == Some(if initial.Some? then initial.value else map[])
    ensures |fetches| == 0 ==> RunUpdates(initial, fetches) == initial
  {
    if |fetches| > 0 {
      var prefix := fetches[..|fetches| - 1];
      assert NoAuthFailure(prefix) by {
        forall i | 0 <= i < |prefix| ensures !(prefix[i].Err? && IsAuthFailure(prefix[i].error)) {
          assert prefix[i] == fetches[i];
        }
      }
      RunUpdatesKeepsLastGood(initial, prefix);
    }
  }

  /** A result of one of the optional lookups inside a refresh: a value,
      an InvalidApiResponseException (the key is then None), or any other
      exception (the whole refresh then fails). */
  datatype Lookup<T> = Fetched(value: T) | ApiFailed(message: string) | Crashed(message: string)

  datatype MarketPrices = MarketPrices(lastMonth: Value, currentMonth: Value, nextMonth: Value)
  datatype SpotCosts = SpotCosts(currentMonth: Value, lastMonth: Value)

  /** Everything a refresh fetches once login and site selection worked. */
  datatype Readings = Readings(
    currentMonth: MeasurementResponse,
    lastMonth: MeasurementResponse,
    averageMonth: MeasurementResponse,
    transferFees: Value,
    contractBasePrice: Value,
    contractType: Value,
    unitPrice: Lookup<Value>,
    marketPrices: Lookup<MarketPrices>,
    exchangeMargin: Lookup<Value>,
    spotCosts: Lookup<SpotCosts>,
    currentMonthImpact: Lookup<Value>)

  const DataKeys: set<string> := {
    "current_month_consumption", "last_month_consumption", "daily_average_consumption",
    "transfer_costs", "contract_base_price", "contract_type", "unit_price",
    "market_prices", "exchange_prices", "exchange_costs", "smart_guarantee"}

  function FirstCrash(r: Readings): Option<string> {
    if r.unitPrice.Crashed? then Some(r.unitPrice.message)
    else if r.marketPrices.Crashed? then Some(r.marketPrices.message)
    else if r.exchangeMargin.Crashed? then Some(r.exchangeMargin.message)
    else if r.spotCosts.Crashed? then Some(r.spotCosts.message)
    else if r.currentMonthImpact.Crashed? then Some(r.currentMonthImpact.message)
    else None
  }

  /** The value stored for an optional lookup: what was fetched, shaped as
      the coordinator stores it, or None when the API reported an error. */
  function UnitPriceEntry(l: Lookup<Value>): Value {
    if l.Fetched? then l.value else VNone
  }

  function MarketPricesEntry(l: Lookup<MarketPrices>): Value {
    match l
    case Fetched(p) => VDict(map["last_month" := p.lastMonth, "current_month" := p.currentMonth,
                                 "next_month" := p.nextMonth])
    case _ => VNone
  }

  function ExchangePricesEntry(l: Lookup<Value>): Value {
    match l
    case Fetched(m) => VDict(map["margin" := m])
    case _ => VNone
  }

  function ExchangeCostsEntry(num: Numerics, l: Lookup<SpotCosts>): Value {
    match l
    case Fetched(c) => VDict(map["current_month" := VNum(SafeRound(num, c.currentMonth)),
                                 "last_month" := VNum(SafeRound(num, c.lastMonth))])
    case _ => VNone
  }

  function SmartGuaranteeEntry(l: Lookup<Value>): Value {
    match l
    case Fetched(i) => VDict(map["current_month_impact" := i])
    case _ => VNone
  }

  /** The coordinator's data dictionary, key by key. */
  function DataMap(num: Numerics, includeTransferCosts: Value, r: Readings): (d: Data)
    ensures d.Keys == DataKeys
  {
    map[
      "current_month_consumption" := VNum(TotalConsumption(num, r.currentMonth)),
      "last_month_consumption" := VNum(TotalConsumption(num, r.lastMonth)),
      "daily_average_consumption" := VNum(DailyAverage(num, r.averageMonth)),
      "transfer_costs" := VNum(if Truthy(includeTransferCosts) then SafeRound(num, r.transferFees) else 0.0),
      KeyContractBasePrice := r.contractBasePrice,
      KeyContractType := r.contractType,
      KeyUnitPrice := UnitPriceEntry(r.unitPrice),
      "market_prices" := MarketPricesEntry(r.marketPrices),
      "exchange_prices" := ExchangePricesEntry(r.exchangeMargin),
      "exchange_costs" := ExchangeCostsEntry(num, r.spotCosts),
      "smart_guarantee" := SmartGuaranteeEntry(r.currentMonthImpact)]
  }

  /** The data dictionary a successful refresh builds. */
  function AssembleData(num: Numerics, includeTransferCosts: Value, r: Readings): (res: Result<Data, UpdateFailure>)
    ensures res.Err? <==> FirstCrash(r).Some?
    ensures res.Err? ==> res.error == UnexpectedError(FirstCrash(r).value)
    ensures res.Ok? ==> res.value.Keys == DataKeys
    ensures res.Ok? ==> res.value[KeyContractType] == r.contractType
    ensures res.Ok? ==> res.value[KeyContractBasePrice] == r.contractBasePrice
    ensures res.Ok? && !Truthy(includeTransferCosts) ==> res.value["transfer_costs"] == VNum(0.0)
    ensures res.Ok? ==> (res.value[KeyUnitPrice] == VNone <==> r.unitPrice.ApiFailed? || r.unitPrice == Fetched(VNone))
  {
    if FirstCrash(r).Some? then Err(UnexpectedError(FirstCrash(r).value))
    else Ok(DataMap(num, includeTransferCosts, r))
  }

  /** A whole refresh: `readings` is the outcome of login, site selection
      and the mandatory lookups (an error when one of them raised). */
  function Refresh(num: Numerics, previous: Option<Data>, includeTransferCosts: Value,
                   readings: Result<Readings, UpdateFailure>): (r: UpdateOutcome)
    ensures readings.Ok? && FirstCrash(readings.value).None? ==>
      r.Refreshed? && r.data.Keys == DataKeys
    ensures readings.Ok? && FirstCrash(readings.value).Some? ==>
      r == Refreshed(if previous.Some? then previous.value else map[])
    ensures readings.Err? ==> (r == ReauthRequired <==> IsAuthFailure(readings.error))
    ensures readings.Err? && !IsAuthFailure(readings.error) ==>
      r == Refreshed(if previous.Some? then previous.value else map[])
  {
    match readings
    case Err(f) => Update(previous, Err(f))
    case Ok(rd) => Update(previous, AssembleData(num, includeTransferCosts, rd))
  }

  /** A failed first refresh: with no earlier data, any failure other than
      an authentication error leaves the coordinator holding `{}`, so the
      contract type reads as None. Unless the fixed-price flag is set, the
      dispatch as written then raises TypeError and the entry's setup
      fails; the corrected dispatch sets the entry up without a price
      sensor. */
  lemma FailedFirstRefreshBreaksDispatch(entryData: Data, failure: UpdateFailure)
    requires !IsAuthFailure(failure)
    requires !Truthy(Get(entryData, KeyFixedPrice, VBool(false)))
    ensures Update(None, Err(failure)) == Refreshed(map[])
    ensures DispatchAsWritten(Get(entryData, KeyFixedPrice, VBool(false)),
                              Get(Update(None, Err(failure)).data, KeyContractType, VNone)).Err?
    ensures KeyUsername in entryData && KeyPassword in entryData && KeyVat in entryData && entryData[KeyVat].VNum? ==>
      SetupEntitiesAsWritten(entryData, Update(None, Err(failure)).data) == Err(ContractTypeNotIterable)
    ensures var entities := SetupEntities(entryData, Update(None, Err(failure)).data);
      !entities[0].Price? && entities[|entities| - 1] == MonthlyConsumption
  {
  }
}

=== FILE: text.dfy ===
/** The string operations the integration relies on: Python's `in` on
    strings, ASCII `lower()`/`upper()`/`title()`, `str.replace('_', ' ')`
    and `str(int)`. */
module Text {

  /** `sub` occurs in `s` starting at index `i`. */
  ghost predicate OccursAt(s: string, sub: string, i: int) {
    0 <= i && i + |sub| <= |s| && s[i..i + |sub|] == sub
  }

  /** Python's `sub in s`, computed by scanning from the left. */
  predicate Contains(s: string, sub: string)
    decreases |s|
  {
    |sub| <= |s| && (s[..|sub|] == sub || (|s| > 0 && Contains(s[1..], sub)))
  }

  /** `Contains` finds exactly the occurrences `OccursAt` describes. */
  lemma {:induction false} ContainsIffOccurs(s: string, sub: string)
    ensures Contains(s, sub) <==> exists i :: OccursAt(s, sub, i)
    decreases |s|
  {
    if |sub| > |s| {
      forall i | OccursAt(s, sub, i) ensures false { }
    } else if s[..|sub|] == sub {
      assert OccursAt(s, sub, 0);
    } else {
      ContainsIffOccurs(s[1..], sub);
      if Contains(s[1..], sub) {
        var j :| OccursAt(s[1..], sub, j);
        assert s[j + 1..j + 1 + |sub|] == s[1..][j..j + |sub|];
        assert OccursAt(s, sub, j + 1);
      }
      if i :| OccursAt(s, sub, i) {
        assert i != 0;
        assert s[1..][i - 1..i - 1 + |sub|] == s[i..i + |sub|];
        assert OccursAt(s[1..], sub, i - 1);
      }
    }
  }

  /** A string contains every substring of a part of it. */
  lemma ContainsInConcat(a: string, sub: string, b: string)
    ensures Contains(a + sub + b, sub)
  {
    var s := a + sub + b;
    assert s[|a|..|a| + |sub|] == sub;
    assert OccursAt(s, sub, |a|);
    ContainsIffOccurs(s, sub);
  }

  predicate IsUpper(c: char) { 'A' <= c <= 'Z' }
  predicate IsLower(c: char) { 'a' <= c <= 'z' }
  predicate IsLetter(c: char) { IsUpper(c) || IsLower(c) }

  function LowerChar(c: char): (r: char)
    ensures IsUpper(c) ==> IsLower(r)
    ensures !IsUpper(c) ==> r == c
  {
    if IsUpper(c) then (c as int + 32) as char else c
  }

  function UpperChar(c: char): (r: char)
    ensures IsLower(c) ==> IsUpper(r)
    ensures !IsLower(c) ==> r == c
  {
    if IsLower(c) then (c as int - 32) as char else c
  }

  /** `s.lower()` on ASCII letters. */
  function ToLower(s: string): (r: string)
    ensures |r| == |s|
    ensures forall i :: 0 <= i < |s| ==> r[i] == LowerChar(s[i])
  {
    if |s| == 0 then "" else [LowerChar(s[0])] + ToLower(s[1..])
  }

  /** `s.upper()` on ASCII letters. */
  function ToUpper(s: string): (r: string)
    ensures |r| == |s|
    ensures forall i :: 0 <= i < |s| ==> r[i] == UpperChar(s[i])
  {
    if |s| == 0 then "" else [UpperChar(s[0])] + ToUpper(s[1..])
  }

  /** `s.replace('_', ' ')` */
  function UnderscoresToSpaces(s: string): (r: string)
    ensures |r| == |s|
    ensures forall i :: 0 <= i < |s| ==> r[i] == (if s[i] == '_' then ' ' else s[i])
  {
    if |s| == 0 then "" else [if s[0] == '_' then ' ' else s[0]] + UnderscoresToSpaces(s[1..])
  }

  /** `s.title()` restricted to ASCII, continuing after a character that was
      (`prevCased`) or was not a letter: a letter that follows a letter is
      lower-cased, any other letter is upper-cased, non-letters are kept. */
  function TitleFrom(s: string, prevCased: bool): (r: string)
    ensures |r| == |s|
  {
    if |s| == 0 then ""
    else
      var c := s[0];
      [if !IsLetter(c) then c else if prevCased then LowerChar(c) else UpperChar(c)]
      + TitleFrom(s[1..], IsLetter(c))
  }

  /** Python's `s.title()` on ASCII. */
  function TitleCase(s: string): string {
    TitleFrom(s, false)
  }

  /** The character `title()` writes at position `i`. */
  ghost function TitleCharAt(s: string, i: int): char
    requires 0 <= i < |s|
  {
    var c := s[i];
    if !IsLetter(c) then c
    else if i > 0 && IsLetter(s[i - 1]) then LowerChar(c)
    else UpperChar(c)
  }

  /** Each character of the title-cased string depends only on that
      character and on whether its predecessor is a letter: every word
      starts upper-case and continues lower-case. */
  lemma {:induction false} TitleCaseChars(s: string)
    ensures forall i :: 0 <= i < |s| ==> TitleCase(s)[i] == TitleCharAt(s, i)
  {
    forall i | 0 <= i < |s| ensures TitleCase(s)[i] == TitleCharAt(s, i) {
      TitleFromChar(s, false, i);
    }
  }

  lemma {:induction false} TitleFromChar(s: string, prevCased: bool, i: int)
    requires 0 <= i < |s|
    ensures TitleFrom(s, prevCased)[i] ==
      (var c := s[i];
       var before := if i == 0 then prevCased else IsLetter(s[i - 1]);
       if !IsLetter(c) then c else if before then LowerChar(c) else UpperChar(c))
    decreases i
  {
    if i > 0 {
      TitleFromChar(s[1..], IsLetter(s[0]), i - 1);
      assert s[1..][i - 1] == s[i];
      if i > 1 {
        assert s[1..][i - 2] == s[i - 1];
      }
    }
  }

  function DigitChar(d: nat): (c: char)
    requires d < 10
    ensures '0' <= c <= '9'
  {
    ('0' as int + d) as char
  }

  function DigitValue(c: char): nat
    requires '0' <= c <= '9'
  {
    c as int - '0' as int
  }

  predicate AllDigits(s: string) {
    forall i :: 0 <= i < |s| ==> '0' <= s[i] <= '9'
  }

  /** Python's `str(n)` for a natural number. */
  function NatToString(n: nat): (r: string)
    ensures |r| > 0 && AllDigits(r)
    ensures n >= 10 ==> r[0] != '0'
  {
    if n < 10 then [DigitChar(n)] else NatToString(n / 10) + [DigitChar(n % 10)]
  }

  /** Reads a string of decimal digits back as a number (`int(s)`). */
  function ParseNat(s: string): nat
    requires AllDigits(s)
  {
    if |s| == 0 then 0 else ParseNat(s[..|s| - 1]) * 10 + DigitValue(s[|s| - 1])
  }

  /** `str` of a natural number reads back as that number. */
  lemma {:induction false} ParseNatToString(n: nat)
    ensures ParseNat(NatToString(n)) == n
  {
    if n >= 10 {
      var s := NatToString(n);
      ParseNatToString(n / 10);
      assert s[..|s| - 1] == NatToString(n / 10);
    }
  }

  lemma NatToStringInjective(m: nat, n: nat)
    ensures NatToString(m) == NatToString(n) ==> m == n
  {
    ParseNatToString(m);
    ParseNatToString(n);
  }
}
